=== FILE: README.md ===
# Patient Portal: facility listing and geolocation, modelled in Dafny

This project models the listing side of the Patient Portal web front end:

- the normaliser that turns a loosely-typed clinic record from the location service into a `Facility`, with a fallback for every field;
- the static catalog of eight facilities shown when nothing nearby is known;
- the home page's derivations: the list on display, the distinct locations, the filtered list, the ordering by distance, and the visible page;
- the home page's state: paging and reset, the location request and its callbacks, the permission query, the fetch of nearby clinics, and the banners;
- the filter bar: active filters, clear-all, title-cased location names, and the location drop-down;
- the `useLocation` hook: its four state fields and the copy of the location kept in browser storage.

JavaScript's loose semantics are written out:

- Truthiness: `""` and `0` are falsy, an empty list is truthy, and `false` survives a `!== undefined` test.
- Strings are sequences of characters. Case mapping covers ASCII letters only. Whitespace is the ECMAScript WhiteSpace and LineTerminator set.
- Ratings and distances are exact reals. Coordinates are whole numbers.
- A stored location is the compact JSON text `{"lat":N,"lng":M}`, with N and M JSON integers (no leading zeros).
- The clock and random source behind fallback ids are a parameter (`IdSeed`).
- Browser callbacks, permission answers and fetch outcomes are events delivered to methods.

Modules, in dependency order:

| file | module | models |
|---|---|---|
| wrappers.dfy | `Wrappers` | optional values (`undefined` fields) |
| text.dfy | `Text` | `toLowerCase`, `includes`, `trim`, `split`/`join`, `\s` |
| numerals.dfy | `Numerals` | decimal text of whole numbers, and reading it back |
| facilities.dfy | `Facilities` | data/facilities.ts |
| listing.dfy | `Listing` | the pure derivations of app/page.tsx |
| search_filters.dfy | `SearchFilters` | components/SearchFilters.tsx and the page's filter state |
| geo.dfy | `Geo` | coordinates and their stored JSON text |
| use_location.dfy | `UseLocation` | app/hooks/useLocation.tsx |
| home_page.dfy | `HomePage` | the state and banners of app/page.tsx |

## Model

| member | source | states |
|---|---|---|
| Facilities.OrElse | data/facilities.ts:39 | `x \|\| fallback` on a string yields one of its two operands, and is empty only when both are falsy, so a non-empty default guarantees a non-empty field |
| Facilities.RealOrElse | data/facilities.ts:45 | `x \|\| fallback` on a number yields one of its operands, keeps a non-zero value, and is zero only when the fallback is |
| Facilities.IntOrElse | data/facilities.ts:46 | the same for whole numbers: one of the operands, a non-zero value kept, zero only when the fallback is zero |
| Facilities.LocationOf | data/facilities.ts:28-31 | location is the truthy city, else the truthy state, else the trimmed second comma segment of the formatted address, else "Unknown Location"; never empty |
| Facilities.SecondSegment | data/facilities.ts:30 | a second segment exists exactly when the formatted address holds a comma; it is the text from the first comma to the next one (or to the end), trimmed, so it neither starts nor ends with whitespace |
| Facilities.StripSeparators | data/facilities.ts:43 | the `/^, \|, $/g` replacement drops a leading ", " when present and a trailing ", " when present, the two matches not overlapping (so ", " alone becomes ""), and leaves a string with neither unchanged |
| Facilities.AddressOf | data/facilities.ts:42-44 | address is the truthy formatted address, else the stripped "street, city, state" template when non-empty, else "Address not available"; never empty |
| Facilities.FallbackId | data/facilities.ts:34 | a made-up id starts with "clinic-", the clock reading and "-", ends with the index, or with the random text when the index is absent or 0, and has nothing in between |
| Facilities.PhoneTextOf | data/facilities.ts:48 | a text phone is kept as is; a numeric phone becomes a non-empty decimal text that reads back as the number; an absent phone stays absent |
| Facilities.Transform | data/facilities.ts:26-54 | id, name, location and address are never empty; type is hospital exactly when the raw type is "hospital"; `_id` is copied and, when truthy, is the id; name, rating, review count, hours and phone fall back to their defaults only when falsy; location and address are those of `LocationOf` and `AddressOf`; the image is kept when truthy, else the hospital or clinic picture by the raw type; services and acceptingPatients are kept whenever present, even when empty or false |
| Facilities.TransformAll | data/facilities.ts:57-59 | the batch keeps length and order; entry i is the record i normalised with index i |
| Facilities.BatchFallbackIdsDistinct | data/facilities.ts:57-59 | within one batch, records without `_id` get pairwise distinct ids, as long as the random text is never the decimal text of a positive index |
| Facilities.TransformToRaw | data/facilities.ts:36-53 | a facility with all fields truthy, sent as a full service record, is normalised back to itself with its id recorded as `_id` |
| Facilities.TextAddressUsesSentinels | data/facilities.ts:28-44 | an address that is a plain string, or absent, yields "Unknown Location" and "Address not available" |
| Facilities.FullAddressJoined | data/facilities.ts:43 | with street, city and state present, the address is the three joined by ", " |
| Facilities.CityStateAddressJoined | data/facilities.ts:43 | with only city and state present, the leading separator is stripped and the address is "city, state" |
| Facilities.StreetOnlyAddressKeepsSeparator | data/facilities.ts:43 | with only a street present, the single global replacement removes one trailing ", " and the address keeps a dangling ", " |
| Facilities.CatalogShape | data/facilities.ts:62-178 | the catalog has 8 entries with distinct ids "1".."8", non-empty addresses, no distance and no `_id` |
| Text.ContainsIffInfix | app/page.tsx:256-260 | `includes` holds exactly when the needle occurs at some position |
| Text.JoinSplit | components/SearchFilters.tsx:37-40 | joining the pieces of a split with the same separator gives back the string |
| Text.SplitJoin | components/SearchFilters.tsx:37-40 | splitting a join of separator-free pieces gives back the pieces |
| Text.Trim | data/facilities.ts:30 | `trim` leaves an infix of the text with only whitespace before and after it, and the result neither starts nor ends with whitespace |
| Text.SplitSecondPiece | data/facilities.ts:30 | `split` gives more than one piece exactly when the separator occurs, and the second piece runs from the first separator to the next one or to the end |
| Text.RemoveWhitespace | app/page.tsx:264-266 | `replace(/\s+/g, "")` leaves no whitespace and keeps every other character that occurs |
| Text.RemoveWhitespaceCounts | app/page.tsx:264-266 | each non-whitespace character is kept as many times as it occurs, and every whitespace character is dropped |
| Text.RemoveWhitespaceAppend | app/page.tsx:264-266 | the removal works piece by piece over a concatenation, so the kept characters stay in their order |
| Numerals.ParseIntOfString | app/hooks/useLocation.tsx:18 | reading back the decimal text of an integer gives the integer |
| Numerals.ParseNat | app/hooks/useLocation.tsx:18 | a JSON natural number is read exactly when the text is digits without a leading zero (a lone "0" allowed) |
| Numerals.ParseNatCanonical | app/hooks/useLocation.tsx:18 | a digit text that is read is the decimal text of its value |
| Numerals.ParseIntIff | app/hooks/useLocation.tsx:18 | a text is read as the integer i exactly when it is the decimal text of i, or "-0" for 0 |
| Geo.Encode | app/hooks/useLocation.tsx:51 | the stored text is a `{"lat":` … `}` object |
| Geo.Decode | app/hooks/useLocation.tsx:18 | only a `{"lat":` … `}` object is read as coordinates; anything else is a parse failure |
| Geo.DecodeReadsOnlyEncodings | app/hooks/useLocation.tsx:18 | a text read as some coordinates is the text stored for them, up to writing a zero as "-0" |
| Geo.DecodeEncode | app/hooks/useLocation.tsx:51 | what is stored is what is read back |
| Geo.EncodeInjective | app/hooks/useLocation.tsx:51 | different coordinates are stored as different texts |
| UseLocation.PositionErrorMessage | app/hooks/useLocation.tsx:64-74 | each failure code gets its own non-empty message; the permission message exactly for code 1 |
| UseLocation.RestoredLocation | app/hooks/useLocation.tsx:15-24 | a stored value that is non-empty and parses is restored; an absent, empty or unparsable one restores nothing |
| UseLocation.StoredLocationRestored | app/hooks/useLocation.tsx:46-53 | a location stored by a successful request is restored by the next mount |
| UseLocation.LocationHook.constructor | app/hooks/useLocation.tsx:7-10 | no location, no error, not loading, not denied; storage as the browser has it |
| UseLocation.LocationHook.Mount | app/hooks/useLocation.tsx:13-25 | a restorable stored value becomes the location; otherwise nothing changes |
| UseLocation.LocationHook.RequestLocation | app/hooks/useLocation.tsx:27-39 | the denial is cleared; with geolocation, loading starts with no error; without it, the "not supported" error is set and loading stops; the location is untouched |
| UseLocation.LocationHook.OnPositionSuccess | app/hooks/useLocation.tsx:45-54 | the coordinates become the location and are stored, and loading stops; the invariant that the shown location is the one a reload restores is kept |
| UseLocation.LocationHook.OnPositionError | app/hooks/useLocation.tsx:55-78 | the message for the code is set, the denial is recorded only for code 1, and loading stops |
| UseLocation.LocationHook.ClearLocation | app/hooks/useLocation.tsx:87-93 | storage, location, denial and error are all cleared; loading is untouched |
| UseLocation.RequestThenReload | app/hooks/useLocation.tsx:46-53 | after a successful request, a fresh hook over the same storage restores the same coordinates on mount |
| Listing.PageDistance | app/page.tsx:44 | the distance is `distance` when non-zero, else `distanceKm`; it is zero only when `distanceKm` is |
| Listing.PageTransform | app/page.tsx:12-46 | the page's normaliser is the shared one with the distance replaced by the non-zero `distance`, else `distanceKm` |
| Listing.PageTransformAgrees | app/page.tsx:12-46 | without a non-zero `distance` the page's normaliser gives exactly the shared one's result; with one, that `distance` is the facility's distance |
| Listing.PageTransformAll | app/page.tsx:49-51 | the page's batch keeps length and order, entry i normalised with index i |
| Listing.DisplayFacilities | app/page.tsx:239 | the nearby clinics when there are any, else the catalog; never empty |
| Listing.Dedup | app/page.tsx:243-246 | `Array.from(new Set(xs))` holds exactly the values of xs, each once |
| Listing.DedupKeepsFirstOccurrenceOrder | app/page.tsx:243-246 | the distinct values appear in the order of their first occurrence |
| Listing.Locations | app/page.tsx:243-246 | `locations` has no repeats, holds the location of every displayed facility, and nothing else |
| Listing.LocationsSpec | app/page.tsx:243-246 | `locations` holds every displayed location exactly once, in first-occurrence order |
| Listing.FilterFacilities | app/page.tsx:249-270 | the filtered list is an order-preserving sublist holding every matching entry as often as it is displayed, and no other |
| Listing.FilterMembership | app/page.tsx:249-270 | a facility is kept exactly when it is displayed and matches search, type and location |
| Listing.FilterDefaultsKeepAll | app/page.tsx:249-270 | with query "", type "all" and location "all" the whole list is kept |
| Listing.MatchesSearch | app/page.tsx:256-260 | the empty query matches everything, and a facility's own name, in any letter case, finds it |
| Listing.MatchesType | app/page.tsx:262 | "hospital" keeps exactly hospitals, "clinic" exactly clinics, and a value other than "all", "hospital" or "clinic" keeps nothing |
| Listing.NormalizeLocation | app/page.tsx:264-266 | the compared form of a location is the lower-cased text with exactly its whitespace deleted: an in-order subsequence holding every non-space character as often as it occurs and no whitespace |
| Listing.MatchesLocation | app/page.tsx:264-266 | a facility's own location, in any letter case, selects it; and a location other than "all" selects it only if both have the same non-space characters, up to letter case, each as often |
| Listing.FiltersIgnoreCase | app/page.tsx:256-266 | search and location filtering give the same answer for a typed value and its lower-cased form |
| Listing.MatchesSearchIffSubstring | app/page.tsx:256-260 | search matches when the query is empty or occurs, ignoring case, in the name or in some service |
| Listing.KeyOf | app/page.tsx:276 | the sort key is infinite exactly when the distance is missing or zero, and is the distance otherwise |
| Listing.KeyLeIsTotalPreorder | app/page.tsx:275-277 | the comparator is consistent: reflexive, total and transitive on keys, with the two infinite keys comparing equal |
| Listing.SortByDistance | app/page.tsx:275-277 | the ordering is ascending by distance, missing or zero distances last, and a permutation of its input |
| Listing.SortByDistanceSpec | app/page.tsx:273-280 | the ordering is ascending by distance with missing or zero distance last, is a permutation, and keeps entries with equal keys in input order |
| Listing.StableSortIsSortByDistance | app/page.tsx:275-277 | any ordered arrangement that keeps equal-key entries in input order is this one, so the model stands for the engine's stable sort |
| Listing.SortedFacilities | app/page.tsx:273-280 | with a known location and nearby clinics the result is the stable distance sort of the filtered list, so an ordered permutation; otherwise it is the filtered list itself; either way entries with equal keys keep their order |
| Listing.VisibleFacilities | app/page.tsx:282 | the first min(visibleCount, n) entries |
| Listing.HasMore | app/page.tsx:283 | "See More" is offered exactly when the visible slice is shorter than the sorted list |
| Listing.SeeMoreRevealsMore | app/page.tsx:282-287 | "See More" is offered exactly when entries are hidden; one more page keeps what is shown and shows more |
| SearchFilters.FilterState.constructor | app/page.tsx:56-58 | query "", type "all", location "all", and no filter active |
| SearchFilters.FilterState.SetSearchQuery | components/SearchFilters.tsx:54 | the query becomes the typed value; type and location are untouched |
| SearchFilters.FilterState.SetSelectedType | components/SearchFilters.tsx:67 | the type becomes the chosen value; query and location are untouched |
| SearchFilters.FilterState.SetSelectedLocation | components/SearchFilters.tsx:80 | the location becomes the chosen value; query and type are untouched |
| SearchFilters.FilterState.HasActiveFilters | components/SearchFilters.tsx:33 | when no filter is active the filters are at their reset values and filtering keeps every list whole, so "Clear all" is offered only when the list may be narrowed |
| SearchFilters.FilterState.ClearAll | components/SearchFilters.tsx:27-31 | every filter is back to "", "all", "all" and no filter is active |
| SearchFilters.InactiveFiltersKeepAll | components/SearchFilters.tsx:33 | when no filter is active, filtering keeps the whole list |
| SearchFilters.FormatWord | components/SearchFilters.tsx:39 | title-casing a word keeps its length and its letters up to case, leaves no lower-case first letter and no upper-case letter after it |
| SearchFilters.FormatWordIdempotent | components/SearchFilters.tsx:39 | title-casing a word twice is title-casing it once |
| SearchFilters.FormatLocationNameWords | components/SearchFilters.tsx:36-41 | the formatted name has as many space-separated words as the name, empty ones included, each the title-cased word and so title-cased |
| SearchFilters.FormatLocationName | components/SearchFilters.tsx:36-41 | formatting keeps the length of the name and its letters up to case |
| SearchFilters.FormatLocationNameIdempotent | components/SearchFilters.tsx:36-41 | formatting a formatted name changes nothing |
| SearchFilters.LocationOptions | components/SearchFilters.tsx:86-102 | "all" first, then one option per location with the lower-cased value and title-cased caption, or exactly the five fixed options when no location is known |
| SearchFilters.OptionValueMatchesLocation | components/SearchFilters.tsx:89 | a location's option value matches that location under the page's comparison |
| SearchFilters.LocationOptionSelectsItsFacilities | components/SearchFilters.tsx:88-92 | choosing the option of a listed location keeps every displayed facility at that location |
| HomePage.PositionErrorMessage | app/page.tsx:161-170 | each failure code gets its own non-empty message; the denial message exactly for code 1 |
| HomePage.NearbyAfter | app/page.tsx:206-225 | a successful body with a list yields that list normalised, in order; anything else yields no clinics |
| HomePage.Page.constructor | app/page.tsx:56-70 | the page's initial state: reset filters, first page, no location, no clinics, nothing in flight, no error |
| HomePage.Page.ShowPermissionBanner | app/page.tsx:321 | the permission banner never shows together with the success banner |
| HomePage.Page.ShowSuccessBanner | app/page.tsx:323 | the success banner shows only while the nearby clinics are the list on display |
| HomePage.Page.ShowLoader | app/page.tsx:326 | a loader shown for the location request never stands beside the error banner |
| HomePage.Page.ShowErrorBanner | app/page.tsx:321-323 | the error banner never shows together with the permission banner or the success banner |
| HomePage.Page.SeeMore | app/page.tsx:285-287 | the visible count grows by exactly 6; the rest of the state is untouched |
| HomePage.Page.Reset | app/page.tsx:289-294 | filters back to "", "all", "all" and the visible count back to 6 |
| HomePage.Page.RequestUserLocation | app/page.tsx:115-128 | without geolocation only the "not supported" error is set; otherwise the request is in flight, recorded as made, and the error is cleared |
| HomePage.Page.OnPositionSuccess | app/page.tsx:139-146 | the coordinates become the location, the error is cleared, the request ends; neither the error nor the permission banner shows |
| HomePage.Page.OnPositionError | app/page.tsx:147-171 | the request ends, the message for the code is set, and the error banner shows |
| HomePage.Page.OnPermissionQueried | app/page.tsx:77-97 | with geolocation the state is recorded, and a granted permission triggers the first location request once |
| HomePage.Page.OnPermissionChanged | app/page.tsx:103-106 | the new permission state is recorded |
| HomePage.Page.EnableLocation | app/page.tsx:296-303 | the request is marked as attempted; with geolocation the error is cleared and a request is in flight; without it the error becomes the "not supported" message and the request flags are untouched |
| HomePage.Page.BeginNearbyFetch | app/page.tsx:182-190 | with a known location, loading starts, the error is cleared and the loader shows; without one nothing happens |
| HomePage.Page.CompleteNearbyFetch | app/page.tsx:192-232 | the nearby clinics become what the outcome delivers, a failure sets the fetch error, loading stops in every case, and the display falls back to the catalog exactly when no clinics arrived |
| HomePage.SortedOnlyNearby | app/page.tsx:273-280 | sorting is applied only when nearby clinics are shown, giving an ordered permutation of the filtered list; otherwise the filtered catalog is kept in its own order |
| HomePage.VisibleIsWholePages | app/page.tsx:282-283 | at least a full page is shown, or everything; "See More" is offered exactly when results remain hidden |

## Left out

- The booking, patient-registration, department and doctor-availability workflow: its pages are not part of this model.
- Network I/O, browser geolocation, the permissions API and `localStorage` are not modelled as such. Their results reach the model as method calls and parameters: `FetchOutcome`, `Coords`, error codes, `PermissionState`, and the stored text.
- The 15-second `setTimeout` guard in `requestUserLocation` (app/page.tsx:130-136) is left out. It is timer behaviour, and its closure reads the `isRequestingLocation` value captured when the callback was created.
- The geolocation options (high accuracy, 10-second timeout) are left out. Only the callbacks they lead to are modelled.
- Geo.Decode: only the compact object `{"lat":N,"lng":M}` with two JSON integers is read. Other JSON that `JSON.parse` accepts (spaces, the other key order, fractions, exponents, other values) would, in the hook, become `userLocation` as whatever value it is; the model treats it as a parse failure.
- Coordinates, ratings and distances are not IEEE doubles. Coordinates are integers and the others exact reals. NaN, infinities and float formatting (`toFixed`) are not modelled.
- Text: case mapping covers ASCII letters only. Unicode case mapping and normalisation are not modelled.
- Facilities.FallbackId: `Date.now()` and `Math.random()` are one `IdSeed` per batch, so the clock is taken as constant during one synchronous `map`.
- Facilities.Transform: a record whose fields have the wrong JavaScript types is not modelled. Examples are a non-string `formattedAddress`, or `services` that is not a list; in the source these throw or pass odd values through.
- HomePage.Page.CompleteNearbyFetch: a `data` field that is truthy but not a list is not modelled; the source would throw inside `map`. Its `requires` that the location is known reflects that the fetch effect returns early without one (app/page.tsx:183-186).
- Console logging (`console.log` and `console.error` throughout app/page.tsx and app/hooks/useLocation.tsx) is left out: it changes no state.
- React rendering order, effect scheduling and concurrent overlapping requests are not modelled. Each event is applied atomically to the state.
- Presentation-only components and pages are not part of this model: the about and contact pages, the header, footer, layout, hero section, facility card, error boundary, not-found page and location-permission panel. Neither are the external links opened by the help buttons.
- app/hydrationFix.tsx (commented out) and data/doctors.ts (static records nothing here reads) are not part of this model.

=== FILE: facilities.dfy ===
/**
 * The facility record shown in the listing, the loosely-typed clinic record the
 * location service returns, the normaliser that turns the latter into the former,
 * and the static catalog used when no nearby clinics are known.
 */
module Facilities {
  import opened Wrappers
  import opened Text
  import opened Numerals

  datatype FacilityType = Hospital | Clinic

  /** A listed clinic or hospital. `rawId` is the service's `_id`, copied unchanged;
      `distanceKm` is the distance from the user when the service reports one. */
  datatype Facility = Facility(
    id: string,
    rawId: Option<string>,
    name: string,
    kind: FacilityType,
    location: string,
    address: string,
    rating: real,
    reviewCount: int,
    openHours: string,
    phone: string,
    image: string,
    services: seq<string>,
    acceptingPatients: bool,
    distanceKm: Option<real>)

  /** The `address` of a service record: a plain string, or an object of optional parts. */
  datatype RawAddress =
    | AddressText(text: string)
    | AddressFields(street: Option<string>, city: Option<string>, state: Option<string>,
                    formattedAddress: Option<string>)

  /** The `phoneNumber` of a service record, which may arrive as text or as a number. */
  datatype PhoneValue = PhoneText(text: string) | PhoneNumber(number: int)

  /** A clinic record as the location service sends it; every field may be undefined.
      `kind` is the record's `type` field. */
  datatype RawClinic = RawClinic(
    rawId: Option<string>,
    name: Option<string>,
    kind: Option<string>,
    address: Option<RawAddress>,
    ratingAvg: Option<real>,
    totalReviews: Option<int>,
    openHours: Option<string>,
    phoneNumber: Option<PhoneValue>,
    image: Option<string>,
    services: Option<seq<string>>,
    acceptingPatients: Option<bool>,
    distanceKm: Option<real>,
    distance: Option<real>)

  /** The clock reading (`Date.now()`) and the text of `Math.random()` that an id
      generated for a record without `_id` is built from. */
  datatype IdSeed = IdSeed(now: nat, random: string)

  const HospitalImage: string := "https://images.unsplash.com/photo-1769147555720-71fc71bfc216?crop=entropy&cs=tinysrgb&fit=max&fm=jpg&ixid=M3w3Nzg4Nzd8MHwxfHNlYXJjaHwxfHxob3NwaXRhbCUyMGJ1aWxkaW5nJTIwZXh0ZXJpb3J8ZW58MXx8fHwxNzcxNTUyNzIxfDA&ixlib=rb-4.1.0&q=80&w=1080"
  const ClinicImage: string := "https://images.unsplash.com/photo-1762625570087-6d98fca29531?crop=entropy&cs=tinysrgb&fit=max&fm=jpg&ixid=M3w3Nzg4Nzd8MHwxfHNlYXJjaHwxfHxtb2Rlcm4lMjBkZW50YWwlMjBjbGluaWMlMjBpbnRlcmlvcnxlbnwxfHx8fDE3NzE1MTkxMDJ8MA&ixlib=rb-4.1.0&q=80&w=1080"
  const UnnamedClinic: string := "Unnamed Clinic"
  const UnknownLocation: string := "Unknown Location"
  const AddressNotAvailable: string := "Address not available"
  const DefaultRating: real := 4.5
  const DefaultOpenHours: string := "Mon - Fri: 9:00 AM - 6:00 PM"
  const DefaultPhone: string := "Contact for details"
  const DefaultServices: seq<string> := ["General Dentistry", "Consultation", "Dental Checkup"]

  /** JavaScript truthiness of an optional string: defined and not empty. */
  predicate Truthy(s: Option<string>) {
    s.Some? && s.value != ""
  }

  /** `s || fallback` on an optional string: one of the two operands, and empty only
      when both are falsy. */
  function OrElse(s: Option<string>, fallback: string): (r: string)
    ensures Truthy(s) ==> r == s.value
    ensures !Truthy(s) ==> r == fallback
    ensures Some(r) == s || r == fallback
    ensures r == "" <==> !Truthy(s) && fallback == ""
  {
    if Truthy(s) then s.value else fallback
  }

  /** `x || fallback` on an optional number: undefined and zero fall back, so the result
      is zero only when the fallback is. */
  function RealOrElse(x: Option<real>, fallback: real): (r: real)
    ensures Some(r) == x || r == fallback
    ensures x.Some? && x.value != 0.0 ==> r == x.value
    ensures r == 0.0 ==> fallback == 0.0
  {
    if x.Some? && x.value != 0.0 then x.value else fallback
  }

  function IntOrElse(x: Option<int>, fallback: int): (r: int)
    ensures Some(r) == x || r == fallback
    ensures x.Some? && x.value != 0 ==> r == x.value
    ensures r == 0 ==> fallback == 0
  {
    if x.Some? && x.value != 0 then x.value else fallback
  }

  /** `address?.street`, `address?.city`, `address?.state`, `address?.formattedAddress`:
      a string-valued address has none of these parts. */
  function Street(address: Option<RawAddress>): Option<string> {
    if address.Some? && address.value.AddressFields? then address.value.street else None
  }

  function City(address: Option<RawAddress>): Option<string> {
    if address.Some? && address.value.AddressFields? then address.value.city else None
  }

  function State(address: Option<RawAddress>): Option<string> {
    if address.Some? && address.value.AddressFields? then address.value.state else None
  }

  function FormattedAddress(address: Option<RawAddress>): Option<string> {
    if address.Some? && address.value.AddressFields? then address.value.formattedAddress else None
  }

  /** `formattedAddress?.split(',').map(s => s.trim())[1]`: present exactly when the
      formatted address holds a comma, and then the text from the first comma to the next
      one (or to the end), trimmed. */
  function SecondSegment(formatted: Option<string>): (r: Option<string>)
    ensures r.Some? <==> formatted.Some? && ',' in formatted.value
    ensures r.Some? ==>
              var rest := formatted.value[IndexOf(formatted.value, ',') + 1..];
              r.value == Trim(if ',' in rest then rest[..IndexOf(rest, ',')] else rest)
    ensures r.Some? && r.value != [] ==> !IsSpace(r.value[0]) && !IsSpace(r.value[|r.value| - 1])
  {
    match formatted
    case None => None
    case Some(f) =>
      var parts := Split(f, ',');
      SplitSecondPiece(f, ',');
      if |parts| > 1 then Some(Trim(parts[1])) else None
  }

  /** The `location` label: city, else state, else the second segment of the formatted
      address, else "Unknown Location" (data/facilities.ts:28-31). */
  function LocationOf(address: Option<RawAddress>): (r: string)
    ensures r != ""
    ensures Truthy(City(address)) ==> r == City(address).value
    ensures !Truthy(City(address)) && Truthy(State(address)) ==> r == State(address).value
    ensures (!Truthy(City(address)) && !Truthy(State(address)))
              ==> r == OrElse(SecondSegment(FormattedAddress(address)), UnknownLocation)
    ensures r == UnknownLocation <==>
              (!Truthy(City(address)) && !Truthy(State(address))
               && !Truthy(SecondSegment(FormattedAddress(address))))
               || (Truthy(City(address)) && City(address).value == UnknownLocation)
               || (!Truthy(City(address)) && Truthy(State(address))
                   && State(address).value == UnknownLocation)
               || (!Truthy(City(address)) && !Truthy(State(address))
                   && SecondSegment(FormattedAddress(address)) == Some(UnknownLocation))
  {
    if Truthy(City(address)) then City(address).value
    else if Truthy(State(address)) then State(address).value
    else OrElse(SecondSegment(FormattedAddress(address)), UnknownLocation)
  }

  /** `s.replace(/^, |, $/g, '')`: one leading ", " and one trailing ", " removed; the two
      matches may not overlap. */
  function StripSeparators(s: string): (r: string)
    ensures |r| <= |s|
    ensures StartsWith(s, ", ") && EndsWith(s, ", ") && |s| >= 4 ==> r == s[2..|s| - 2]
    ensures StartsWith(s, ", ") && EndsWith(s, ", ") && |s| < 4 ==> r == s[2..]
    ensures StartsWith(s, ", ") && !EndsWith(s, ", ") ==> r == s[2..]
    ensures !StartsWith(s, ", ") && EndsWith(s, ", ") ==> r == s[..|s| - 2]
    ensures !StartsWith(s, ", ") && !EndsWith(s, ", ") ==> r == s
  {
    var lead := StartsWith(s, ", ");
    var trail := EndsWith(s, ", ") && (!lead || |s| >= 4);
    s[(if lead then 2 else 0)..(if trail then |s| - 2 else |s|)]
  }

  /** "street, city, state" with each missing part written as "". */
  function AddressTemplate(address: Option<RawAddress>): string {
    OrElse(Street(address), "") + ", " + OrElse(City(address), "") + ", " + OrElse(State(address), "")
  }

  /** The display `address`: the formatted address, else the stripped template, else
      "Address not available" (data/facilities.ts:42-44). */
  function AddressOf(address: Option<RawAddress>): (r: string)
    ensures r != ""
    ensures Truthy(FormattedAddress(address)) ==> r == FormattedAddress(address).value
    ensures (!Truthy(FormattedAddress(address)) && StripSeparators(AddressTemplate(address)) != "")
              ==> r == StripSeparators(AddressTemplate(address))
    ensures (!Truthy(FormattedAddress(address)) && StripSeparators(AddressTemplate(address)) == "")
              ==> r == AddressNotAvailable
  {
    if Truthy(FormattedAddress(address)) then FormattedAddress(address).value
    else
      var joined := StripSeparators(AddressTemplate(address));
      if joined != "" then joined else AddressNotAvailable
  }

  /** The id made up for a record without `_id`: "clinic-" + now + "-" + the index, or the
      random text when the index is absent or 0 (0 is falsy). */
  function FallbackId(index: Option<nat>, seed: IdSeed): (r: string)
    ensures StartsWith(r, "clinic-" + NatToString(seed.now) + "-")
    ensures |r| == |"clinic-" + NatToString(seed.now) + "-"|
                   + if index.Some? && index.value != 0 then |NatToString(index.value)| else |seed.random|
    ensures index.Some? && index.value != 0 ==> EndsWith(r, NatToString(index.value))
    ensures !(index.Some? && index.value != 0) ==> EndsWith(r, seed.random)
  {
    "clinic-" + NatToString(seed.now) + "-"
    + (if index.Some? && index.value != 0 then NatToString(index.value) else seed.random)
  }

  /** `phoneNumber?.toString()`: a number is written in decimal. */
  function PhoneTextOf(phone: Option<PhoneValue>): (r: Option<string>)
    ensures r.None? <==> phone.None?
    ensures phone.Some? && phone.value.PhoneText? ==> r == Some(phone.value.text)
    ensures phone.Some? && phone.value.PhoneNumber? ==>
              Truthy(r) && ParseInt(r.value) == Some(phone.value.number)
  {
    match phone
    case None => None
    case Some(PhoneText(t)) => Some(t)
    case Some(PhoneNumber(n)) =>
      ParseIntOfString(n);
      Some(IntToString(n))
  }

  /** The default picture for the record's raw `type`. */
  function DefaultImage(kind: Option<string>): string {
    if kind == Some("hospital") then HospitalImage else ClinicImage
  }

  /** `transformClinicToFacility(clinic, index)` of data/facilities.ts: every field gets a
      value, defaults standing in for falsy ones. */
  function Transform(raw: RawClinic, index: Option<nat>, seed: IdSeed): (f: Facility)
    ensures f.id != "" && f.name != "" && f.location != "" && f.address != ""
    ensures f.kind == Hospital <==> raw.kind == Some("hospital")
    ensures f.rawId == raw.rawId
    ensures Truthy(raw.rawId) ==> f.id == raw.rawId.value
    ensures !Truthy(raw.rawId) ==> f.id == FallbackId(index, seed)
    ensures f.name == OrElse(raw.name, UnnamedClinic)
    ensures f.location == LocationOf(raw.address) && f.address == AddressOf(raw.address)
    ensures f.image == OrElse(raw.image, DefaultImage(raw.kind))
    ensures f.rating == RealOrElse(raw.ratingAvg, DefaultRating)
    ensures f.reviewCount == IntOrElse(raw.totalReviews, 0)
    ensures f.openHours == OrElse(raw.openHours, DefaultOpenHours)
    ensures f.phone == OrElse(PhoneTextOf(raw.phoneNumber), DefaultPhone)
    ensures raw.services.Some? ==> f.services == raw.services.value
    ensures raw.services.None? ==> f.services == DefaultServices
    ensures f.acceptingPatients == raw.acceptingPatients.GetOr(true)
    ensures f.distanceKm == raw.distanceKm
  {
    Facility(
      id := OrElse(raw.rawId, FallbackId(index, seed)),
      rawId := raw.rawId,
      name := OrElse(raw.name, UnnamedClinic),
      kind := if raw.kind == Some("hospital") then Hospital else Clinic,
      location := LocationOf(raw.address),
      address := AddressOf(raw.address),
      rating := RealOrElse(raw.ratingAvg, DefaultRating),
      reviewCount := IntOrElse(raw.totalReviews, 0),
      openHours := OrElse(raw.openHours, DefaultOpenHours),
      phone := OrElse(PhoneTextOf(raw.phoneNumber), DefaultPhone),
      image := OrElse(raw.image, DefaultImage(raw.kind)),
      services := raw.services.GetOr(DefaultServices),
      acceptingPatients := raw.acceptingPatients.GetOr(true),
      distanceKm := raw.distanceKm)
  }

  /** `transformClinicsToFacilities(clinics)`: each record normalised with its index. */
  function TransformAll(raws: seq<RawClinic>, seed: IdSeed): (fs: seq<Facility>)
    ensures |fs| == |raws|
    ensures forall i :: 0 <= i < |raws| ==> fs[i] == Transform(raws[i], Some(i), seed)
  {
    seq(|raws|, i requires 0 <= i < |raws| => Transform(raws[i], Some(i), seed))
  }

  /** Within one batch, records without `_id` receive pairwise distinct ids, provided the
      random text is not the decimal text of a positive whole number (`Math.random()` is
      below 1). */
  lemma {:induction false} BatchFallbackIdsDistinct(raws: seq<RawClinic>, seed: IdSeed, i: nat, j: nat)
    requires i < |raws| && j < |raws| && i != j
    requires !Truthy(raws[i].rawId) && !Truthy(raws[j].rawId)
    requires forall k: nat :: 1 <= k ==> seed.random != NatToString(k)
    ensures TransformAll(raws, seed)[i].id != TransformAll(raws, seed)[j].id
  {
    var prefix := "clinic-" + NatToString(seed.now) + "-";
    var a := if i != 0 then NatToString(i) else seed.random;
    var b := if j != 0 then NatToString(j) else seed.random;
    assert FallbackId(Some(i), seed) == prefix + a;
    assert FallbackId(Some(j), seed) == prefix + b;
    if a == b && i != 0 && j != 0 {
      NatToStringInjective(i, j);
    }
    assert (prefix + a)[|prefix|..] == a;
    assert (prefix + b)[|prefix|..] == b;
  }

  /** The record the location service would send for `f`: every field present, the
      location as the city and the address as the formatted address. */
  function ToRaw(f: Facility): RawClinic {
    RawClinic(
      rawId := Some(f.id),
      name := Some(f.name),
      kind := Some(if f.kind == Hospital then "hospital" else "clinic"),
      address := Some(AddressFields(None, Some(f.location), None, Some(f.address))),
      ratingAvg := Some(f.rating),
      totalReviews := Some(f.reviewCount),
      openHours := Some(f.openHours),
      phoneNumber := Some(PhoneText(f.phone)),
      image := Some(f.image),
      services := Some(f.services),
      acceptingPatients := Some(f.acceptingPatients),
      distanceKm := f.distanceKm,
      distance := None)
  }

  /** A facility whose fields are all truthy passes unchanged through the normaliser. */
  predicate WellFormed(f: Facility) {
    f.id != "" && f.name != "" && f.location != "" && f.address != "" && f.rating != 0.0
    && f.openHours != "" && f.phone != "" && f.image != ""
  }

  /** Normalising the service record of a well-formed facility gives the facility back,
      with its id also recorded as `_id`. */
  lemma TransformToRaw(f: Facility, index: Option<nat>, seed: IdSeed)
    requires WellFormed(f)
    ensures Transform(ToRaw(f), index, seed) == f.(rawId := Some(f.id))
  {
  }

  /** A string address, or none at all, has no parts: the sentinels are used. */
  lemma TextAddressUsesSentinels(address: Option<RawAddress>)
    requires address.None? || address.value.AddressText?
    ensures AddressOf(address) == AddressNotAvailable
    ensures LocationOf(address) == UnknownLocation
  {
    assert AddressTemplate(address) == ", , ";
  }

  /** A first part that does not start with ", " keeps the whole from starting with it. */
  lemma NoLeadingSeparator(first: string, rest: string)
    requires first != "" && !StartsWith(first, ", ") && StartsWith(rest, ", ")
    ensures !StartsWith(first + rest, ", ")
  {
    var s := first + rest;
    if |first| >= 2 { assert s[..2] == first[..2]; } else { assert s[1] == ','; }
  }

  /** A last part that does not end with ", ", after a separator, keeps the whole from
      ending with it. */
  lemma NoTrailingSeparator(init: string, last: string)
    requires last != "" && !EndsWith(last, ", ")
    ensures !EndsWith(init + ", " + last, ", ")
  {
    var s := init + ", " + last;
    if |last| == 1 {
      assert s[|s| - 2..] == [' ', last[0]];
    } else {
      assert s[|s| - 2..] == last[|last| - 2..];
    }
  }

  /** Street, city and state present: they are joined with ", ". */
  lemma FullAddressJoined(street: string, city: string, state: string)
    requires street != "" && city != "" && state != ""
    requires !StartsWith(street, ", ") && !EndsWith(state, ", ")
    ensures AddressOf(Some(AddressFields(Some(street), Some(city), Some(state), None)))
            == street + ", " + city + ", " + state
  {
    var a := Some(AddressFields(Some(street), Some(city), Some(state), None));
    var s := AddressTemplate(a);
    var rest := ", " + city + ", " + state;
    assert s == street + rest;
    assert rest[..2] == ", ";
    NoLeadingSeparator(street, rest);
    assert s == (street + ", " + city) + ", " + state;
    NoTrailingSeparator(street + ", " + city, state);
    assert StripSeparators(s) == s;
  }

  /** Only city and state present: the leading separator goes, leaving "city, state". */
  lemma CityStateAddressJoined(city: string, state: string)
    requires city != "" && state != "" && !EndsWith(state, ", ")
    ensures AddressOf(Some(AddressFields(None, Some(city), Some(state), None)))
            == city + ", " + state
  {
    var a := Some(AddressFields(None, Some(city), Some(state), None));
    var s := AddressTemplate(a);
    var joined := city + ", " + state;
    assert s == ", " + joined;
    assert s[..2] == ", " && s[2..] == joined;
    assert s == (", " + city) + ", " + state;
    NoTrailingSeparator(", " + city, state);
    assert StripSeparators(s) == joined;
  }

  /** Only a street present: one trailing separator of the two is removed, so the
      display address keeps a dangling ", ". */
  lemma StreetOnlyAddressKeepsSeparator(street: string)
    requires street != "" && !StartsWith(street, ", ")
    ensures AddressOf(Some(AddressFields(Some(street), None, None, None))) == street + ", "
  {
    var a := Some(AddressFields(Some(street), None, None, None));
    var s := AddressTemplate(a);
    assert s == street + ", , ";
    assert !StartsWith(s, ", ") by {
      if |street| >= 2 { assert s[..2] == street[..2]; } else { assert s[1] == ','; }
    }
    assert s[..|s| - 2] == street + ", ";
  }

  /** The static catalog shown when no nearby clinics are known (`mockFacilities`). */
  const Catalog: seq<Facility> := [
    BrightSmileDental, CityDentalCare, PremierDental, FamilyDental,
    AdvancedDental, SunsetDental, SmileCareDental, MetroDental
  ]

  const BrightSmileDental: Facility := Facility(
    id := "1", rawId := None, name := "Bright Smile Dental Hospital", kind := Hospital,
    location := "Downtown", address := "123 Medical Center Blvd, Downtown",
    rating := 4.8, reviewCount := 342, openHours := "Mon-Fri: 8AM-8PM, Sat: 9AM-5PM",
    phone := "(555) 123-4567", image := HospitalImage,
    services := ["General Dentistry", "Orthodontics", "Oral Surgery", "Emergency Care"],
    acceptingPatients := true, distanceKm := None)

  const CityDentalCare: Facility := Facility(
    id := "2", rawId := None, name := "City Dental Care Clinic", kind := Clinic,
    location := "West Side", address := "456 Oak Street, West Side",
    rating := 4.6, reviewCount := 198, openHours := "Mon-Sat: 9AM-6PM",
    phone := "(555) 234-5678", image := ClinicImage,
    services := ["Teeth Whitening", "Cleanings", "Fillings", "Checkups"],
    acceptingPatients := true, distanceKm := None)

  const PremierDental: Facility := Facility(
    id := "3", rawId := None, name := "Premier Dental Hospital", kind := Hospital,
    location := "East Side", address := "789 Healthcare Ave, East Side",
    rating := 4.9, reviewCount := 521, openHours := "24/7 Emergency Services",
    phone := "(555) 345-6789", image := HospitalImage,
    services := ["Cosmetic Dentistry", "Implants", "Root Canal", "Pediatric Dentistry"],
    acceptingPatients := true, distanceKm := None)

  const FamilyDental: Facility := Facility(
    id := "4", rawId := None, name := "Family Dental Clinic", kind := Clinic,
    location := "North Side", address := "321 Elm Road, North Side",
    rating := 4.5, reviewCount := 167, openHours := "Mon-Fri: 8AM-5PM",
    phone := "(555) 456-7890", image := ClinicImage,
    services := ["Family Dentistry", "Preventive Care", "Fluoride Treatment"],
    acceptingPatients := false, distanceKm := None)

  const AdvancedDental: Facility := Facility(
    id := "5", rawId := None, name := "Advanced Dental Solutions", kind := Clinic,
    location := "Downtown", address := "654 Main Street, Downtown",
    rating := 4.7, reviewCount := 289, openHours := "Mon-Sat: 9AM-7PM",
    phone := "(555) 567-8901", image := ClinicImage,
    services := ["Invisalign", "Veneers", "Teeth Whitening", "Dental Crowns"],
    acceptingPatients := true, distanceKm := None)

  const SunsetDental: Facility := Facility(
    id := "6", rawId := None, name := "Sunset Dental Hospital", kind := Hospital,
    location := "Suburbs", address := "987 Park Lane, Suburbs",
    rating := 4.8, reviewCount := 412, openHours := "Mon-Sun: 7AM-9PM",
    phone := "(555) 678-9012", image := HospitalImage,
    services := ["Periodontics", "Endodontics", "Prosthodontics", "Oral Pathology"],
    acceptingPatients := true, distanceKm := None)

  const SmileCareDental: Facility := Facility(
    id := "7", rawId := None, name := "SmileCare Dental Clinic", kind := Clinic,
    location := "West Side", address := "147 Maple Avenue, West Side",
    rating := 4.4, reviewCount := 134, openHours := "Tue-Sat: 10AM-6PM",
    phone := "(555) 789-0123", image := ClinicImage,
    services := ["General Dentistry", "Cosmetic Procedures", "Dental Hygiene"],
    acceptingPatients := true, distanceKm := None)

  const MetroDental: Facility := Facility(
    id := "8", rawId := None, name := "Metro Dental Hospital", kind := Hospital,
    location := "East Side", address := "258 Health Plaza, East Side",
    rating := 4.9, reviewCount := 598, openHours := "Mon-Sun: 6AM-10PM",
    phone := "(555) 890-1234", image := HospitalImage,
    services := ["Maxillofacial Surgery", "Dental Implants", "Trauma Care", "Reconstructive Surgery"],
    acceptingPatients := true, distanceKm := None)

  /** The catalog holds eight facilities with ids "1" to "8", non-empty addresses,
      no distance and no service `_id`. */
  lemma CatalogShape()
    ensures |Catalog| == 8
    ensures forall i :: 0 <= i < 8 ==> Catalog[i].id == NatToString(i + 1)
    ensures forall i, j :: 0 <= i < j < 8 ==> Catalog[i].id != Catalog[j].id
    ensures forall i :: 0 <= i < 8 ==>
              Catalog[i].address != "" && Catalog[i].distanceKm.None? && Catalog[i].rawId.None?
  {
  }
}

=== FILE: geo.dfy ===
/**
 * Coordinates and the text form under which the geolocation hook keeps them in
 * browser storage: `JSON.stringify({ lat, lng })`, read back with `JSON.parse`.
 * Coordinates are whole numbers here; only their identity matters to the listing.
 */
module Geo {
  import opened Wrappers
  import opened Text
  import opened Numerals

  datatype Coords = Coords(lat: int, lng: int)

  const LatField: string := "{\"lat\":"
  const LngField: string := ",\"lng\":"

  /** The compact object text with the given latitude and longitude texts. */
  function Render(latText: string, lngText: string): string {
    LatField + latText + LngField + lngText + "}"
  }

  /** `JSON.stringify({ lat, lng })`. */
  function Encode(c: Coords): (s: string)
    ensures StartsWith(s, LatField) && EndsWith(s, "}")
  {
    Render(IntToString(c.lat), IntToString(c.lng))
  }

  /** `JSON.parse` of a stored location: the object `{"lat":N,"lng":M}` with two JSON
      integers, written without spaces; anything else is a parse failure. */
  function Decode(s: string): (r: Option<Coords>)
    ensures r.Some? ==> StartsWith(s, LatField) && EndsWith(s, "}")
  {
    if StartsWith(s, LatField) && |s| > |LatField| && s[|s| - 1] == '}' then
      DecodeFields(s[|LatField|..|s| - 1])
    else None
  }

  /** The text between the braces: latitude, the `lng` key, longitude. */
  function DecodeFields(body: string): Option<Coords> {
    match SplitFields(body)
    case None => None
    case Some((latText, lngText)) =>
      match (ParseInt(latText), ParseInt(lngText))
      case (Some(lat), Some(lng)) => Some(Coords(lat, lng))
      case _ => None
  }

  /** The two number texts of a body: up to the first comma, and after the `lng` key that
      must follow it. */
  function SplitFields(body: string): Option<(string, string)> {
    var k := IndexOf(body, ',');
    if k < 0 || !StartsWith(body[k..], LngField) then None
    else Some((body[..k], body[k + |LngField|..]))
  }

  /** A split body is put back together by writing the key between its two texts. */
  lemma SplitFieldsJoin(body: string)
    requires SplitFields(body).Some?
    ensures body == SplitFields(body).value.0 + LngField + SplitFields(body).value.1
    ensures ',' !in SplitFields(body).value.0
  {
    var k := IndexOf(body, ',');
    KeyAt(body, k);
  }

  /** A body whose text from `k` on opens with the key is the text before `k`, the key
      and the text after it. */
  lemma KeyAt(body: string, k: int)
    requires 0 <= k < |body| && StartsWith(body[k..], LngField)
    ensures body == body[..k] + LngField + body[k + |LngField|..]
  {
    var tail := body[k..];
    assert tail == tail[..|LngField|] + tail[|LngField|..];
    assert body == body[..k] + tail;
  }

  /** A latitude text without a comma, the key and any longitude text split back apart. */
  lemma SplitFieldsOf(latText: string, lngText: string)
    requires ',' !in latText
    ensures SplitFields(latText + LngField + lngText) == Some((latText, lngText))
  {
    var body := latText + LngField + lngText;
    var k := |latText|;
    CommaFirst(latText, lngText);
    assert body[..k] == latText;
    assert body[k..] == LngField + lngText;
    assert body[k + |LngField|..] == lngText;
  }

  /** The first comma of such a body is the one that opens the key. */
  lemma CommaFirst(latText: string, lngText: string)
    requires ',' !in latText
    ensures IndexOf(latText + LngField + lngText, ',') == |latText|
  {
    var rest := LngField[1..] + lngText;
    assert LngField == [','] + LngField[1..];
    assert latText + LngField + lngText == latText + [','] + rest;
    IndexOfAfter(latText, ',', rest);
  }

  lemma DecodeFieldsOf(c: Coords)
    ensures DecodeFields(IntToString(c.lat) + LngField + IntToString(c.lng)) == Some(c)
  {
    ParseIntOfString(c.lat);
    ParseIntOfString(c.lng);
    SplitFieldsOf(IntToString(c.lat), IntToString(c.lng));
  }

  /** What is stored is what is read back. */
  lemma DecodeEncode(c: Coords)
    ensures Decode(Encode(c)) == Some(c)
  {
    var s := Encode(c);
    var body := IntToString(c.lat) + LngField + IntToString(c.lng);
    assert s == LatField + body + "}";
    var head := s[..|LatField|];
    assert head == LatField;
    var inner := s[|LatField|..|s| - 1];
    assert inner == body;
    DecodeFieldsOf(c);
  }

  /** A body that decodes is a latitude text, the `lng` key and a longitude text, each
      number text read on its own. */
  lemma DecodeFieldsParts(body: string, c: Coords) returns (latText: string, lngText: string)
    requires DecodeFields(body) == Some(c)
    ensures body == latText + LngField + lngText
    ensures ParseInt(latText) == Some(c.lat) && ParseInt(lngText) == Some(c.lng)
  {
    SplitFieldsJoin(body);
    latText, lngText := SplitFields(body).value.0, SplitFields(body).value.1;
  }

  /** A text that decodes is the object text around its two number texts. */
  lemma DecodeParts(s: string, c: Coords) returns (latText: string, lngText: string)
    requires Decode(s) == Some(c)
    ensures s == Render(latText, lngText)
    ensures ParseInt(latText) == Some(c.lat) && ParseInt(lngText) == Some(c.lng)
  {
    var body := s[|LatField|..|s| - 1];
    latText, lngText := DecodeFieldsParts(body, c);
    Reassemble(s, latText, lngText);
  }

  lemma Reassemble(s: string, latText: string, lngText: string)
    requires StartsWith(s, LatField) && |s| > |LatField| && s[|s| - 1] == '}'
    requires s[|LatField|..|s| - 1] == latText + LngField + lngText
    ensures s == Render(latText, lngText)
  {
    var head, body, close := s[..|LatField|], s[|LatField|..|s| - 1], s[|s| - 1..];
    assert head == LatField && close == "}";
    assert s == head + body + close;
  }

  /** Only stored-location texts are read: a text that decodes to `c` is the text written
      for `c`, except that either number may be written `-0` where it is 0. */
  lemma DecodeReadsOnlyEncodings(s: string, c: Coords)
    requires Decode(s) == Some(c)
    ensures exists latText, lngText ::
              latText in IntTexts(c.lat) && lngText in IntTexts(c.lng) && s == Render(latText, lngText)
  {
    var latText, lngText := DecodeParts(s, c);
    ParseIntIff(latText, c.lat);
    ParseIntIff(lngText, c.lng);
  }

  /** Different coordinates are stored as different texts. */
  lemma EncodeInjective(a: Coords, b: Coords)
    requires Encode(a) == Encode(b)
    ensures a == b
  {
    DecodeEncode(a);
    DecodeEncode(b);
  }
}

=== FILE: home_page.dfy ===
/**
 * The home page's state and the steps that change it: paging and reset, the location
 * request with its success and failure callbacks, the permission query, the fetch of
 * nearby clinics, and the banners chosen from that state. Browser callbacks, the
 * permission query's answers and the fetch's outcome are events delivered to methods.
 */
module HomePage {
  import opened Wrappers
  import opened Facilities
  import opened Listing
  import opened SearchFilters
  import opened Geo

  const UnsupportedMessage: string := "Geolocation is not supported by your browser."
  const DeniedMessage: string := "Location access denied. Please enable location access to see nearby clinics."
  const UnavailableMessage: string := "Location information is unavailable. Please try again."
  const TimeoutMessage: string := "Location request timed out. Please try again."
  const UnknownErrorMessage: string := "An unknown error occurred while getting your location."
  const FetchFailedMessage: string := "Failed to fetch nearby clinics. Please try again later."

  /** The message the page shows for a failed position request, chosen by error code. */
  function PositionErrorMessage(code: int): (m: string)
    ensures m != ""
    ensures m == DeniedMessage <==> code == 1
    ensures m == UnavailableMessage <==> code == 2
    ensures m == TimeoutMessage <==> code == 3
    ensures m == UnknownErrorMessage <==> code !in {1, 2, 3}
  {
    if code == 1 then DeniedMessage
    else if code == 2 then UnavailableMessage
    else if code == 3 then TimeoutMessage
    else UnknownErrorMessage
  }

  /** The state the permissions API reports for geolocation. */
  datatype PermissionState = Granted | Denied | Prompt

  /** How a fetch of nearby clinics ended: it failed (the request was rejected, the
      status was not OK, or the body was not JSON), or it delivered a body with a
      `success` flag and perhaps a `data` list. */
  datatype FetchOutcome = Failed | Received(success: bool, data: Option<seq<RawClinic>>)

  /** The clinics a completed fetch leaves on the page: the normalised `data` when the
      body reports success and carries a list (an empty list included), nothing otherwise. */
  function NearbyAfter(outcome: FetchOutcome, seed: IdSeed): (r: seq<Facility>)
    ensures outcome.Received? && outcome.success && outcome.data.Some? ==>
              |r| == |outcome.data.value|
              && forall i :: 0 <= i < |r| ==> r[i] == PageTransform(outcome.data.value[i], Some(i), seed)
    ensures !(outcome.Received? && outcome.success && outcome.data.Some?) ==> r == []
  {
    if outcome.Received? && outcome.success && outcome.data.Some? then
      PageTransformAll(outcome.data.value, seed)
    else []
  }

  class Page {
    /** The search query, type and location the filter bar edits. */
    const filters: FilterState
    const geolocationSupported: bool
    var visibleCount: nat
    var userLocation: Option<Coords>
    var nearbyClinics: seq<Facility>
    var isLoadingClinics: bool
    var isRequestingLocation: bool
    var locationError: Option<string>
    var locationPermission: Option<PermissionState>
    var hasRequestedLocation: bool
    /** The `locationRequestAttempted` ref. */
    var locationRequestAttempted: bool

    /** What every step keeps true: the page shows whole pages of results, nearby clinics
        exist only once the user's location is known, and a request in flight has been
        recorded as made, on a browser that offers geolocation. */
    predicate Valid()
      reads this
    {
      && visibleCount >= PageSize && visibleCount % PageSize == 0
      && (|nearbyClinics| > 0 ==> userLocation.Some?)
      && (isRequestingLocation ==> hasRequestedLocation && geolocationSupported)
    }

    constructor (geolocationSupported: bool)
      ensures this.geolocationSupported == geolocationSupported
      ensures filters.searchQuery == "" && filters.selectedType == "all" && filters.selectedLocation == "all"
      ensures visibleCount == PageSize && userLocation.None? && nearbyClinics == []
      ensures !isLoadingClinics && !isRequestingLocation && locationError.None?
      ensures locationPermission.None? && !hasRequestedLocation && !locationRequestAttempted
      ensures fresh(filters)
      ensures Valid()
    {
      filters := new FilterState();
      this.geolocationSupported := geolocationSupported;
      visibleCount := PageSize;
      userLocation, nearbyClinics := None, [];
      isLoadingClinics, isRequestingLocation := false, false;
      locationError, locationPermission := None, None;
      hasRequestedLocation, locationRequestAttempted := false, false;
    }

    // -------------------------------------------------------------------------------
    // What the page renders

    /** `displayFacilities`. */
    function Display(): seq<Facility>
      reads this
    {
      DisplayFacilities(nearbyClinics)
    }

    /** `locations`, the options of the location filter. */
    function LocationList(): seq<string>
      reads this
    {
      Locations(Display())
    }

    /** `filteredFacilities`. */
    function Filtered(): seq<Facility>
      reads this, filters
    {
      FilterFacilities(Display(), filters.searchQuery, filters.selectedType, filters.selectedLocation)
    }

    /** `sortedFacilities`. */
    function Sorted(): seq<Facility>
      reads this, filters
    {
      SortedFacilities(Filtered(), userLocation.Some?, |nearbyClinics|)
    }

    /** `visibleFacilities`. */
    function Visible(): seq<Facility>
      reads this, filters
    {
      VisibleFacilities(Sorted(), visibleCount)
    }

    /** `hasMore`: whether the "See More" button is offered. */
    predicate ShowsMore()
      reads this, filters
    {
      HasMore(Sorted(), visibleCount)
    }

    /** `showPermissionBanner`. */
    predicate ShowPermissionBanner()
      reads this
      ensures ShowPermissionBanner() ==> !ShowSuccessBanner()
    {
      userLocation.None? && !Truthy(locationError) && locationPermission != Some(Granted)
      && !hasRequestedLocation
    }

    /** `showSuccessBanner`. */
    predicate ShowSuccessBanner()
      reads this
      ensures ShowSuccessBanner() ==> Display() == nearbyClinics
    {
      userLocation.Some? && !Truthy(locationError) && |nearbyClinics| > 0
    }

    /** `showErrorBanner`: shown only alone, never beside the permission banner or the
        success banner. */
    predicate ShowErrorBanner()
      reads this
      ensures ShowErrorBanner() ==> !ShowPermissionBanner() && !ShowSuccessBanner()
    {
      Truthy(locationError) && !isRequestingLocation
    }

    /** `showLoader`: exactly while the location is requested or clinics are loading;
        a loader for the location request never stands beside the error banner. */
    predicate ShowLoader()
      reads this
      ensures ShowLoader() && !isLoadingClinics ==> !ShowErrorBanner()
    {
      isRequestingLocation || isLoadingClinics
    }

    // -------------------------------------------------------------------------------
    // Paging

    /** `handleSeeMore`: one more page. */
    method SeeMore()
      requires Valid()
      modifies this
      ensures Valid()
      ensures visibleCount == old(visibleCount) + PageSize
      ensures userLocation == old(userLocation) && nearbyClinics == old(nearbyClinics)
      ensures isLoadingClinics == old(isLoadingClinics) && isRequestingLocation == old(isRequestingLocation)
      ensures locationError == old(locationError) && locationPermission == old(locationPermission)
      ensures hasRequestedLocation == old(hasRequestedLocation)
      ensures locationRequestAttempted == old(locationRequestAttempted)
    {
      visibleCount := visibleCount + PageSize;
    }

    /** `handleReset`: every filter back to its reset value and the first page only. */
    method Reset()
      requires Valid()
      modifies this, filters
      ensures Valid()
      ensures filters.searchQuery == "" && filters.selectedType == "all" && filters.selectedLocation == "all"
      ensures !filters.HasActiveFilters()
      ensures visibleCount == PageSize
      ensures userLocation == old(userLocation) && nearbyClinics == old(nearbyClinics)
      ensures isLoadingClinics == old(isLoadingClinics) && isRequestingLocation == old(isRequestingLocation)
      ensures locationError == old(locationError) && locationPermission == old(locationPermission)
      ensures hasRequestedLocation == old(hasRequestedLocation)
      ensures locationRequestAttempted == old(locationRequestAttempted)
    {
      filters.SetSearchQuery("");
      filters.SetSelectedType("all");
      filters.SetSelectedLocation("all");
      visibleCount := PageSize;
    }

    // -------------------------------------------------------------------------------
    // Location

    /** `requestUserLocation`: without geolocation only the error is set; otherwise the
        request is marked as in flight and as made, and the error is cleared. */
    method RequestUserLocation()
      requires Valid()
      modifies this
      ensures Valid()
      ensures !geolocationSupported ==>
                locationError == Some(UnsupportedMessage)
                && isRequestingLocation == old(isRequestingLocation)
                && hasRequestedLocation == old(hasRequestedLocation)
      ensures geolocationSupported ==>
                isRequestingLocation && hasRequestedLocation && locationError.None?
      ensures visibleCount == old(visibleCount)
      ensures userLocation == old(userLocation) && nearbyClinics == old(nearbyClinics)
      ensures isLoadingClinics == old(isLoadingClinics) && locationPermission == old(locationPermission)
      ensures locationRequestAttempted == old(locationRequestAttempted)
    {
      if !geolocationSupported {
        locationError := Some(UnsupportedMessage);
        return;
      }
      isRequestingLocation := true;
      hasRequestedLocation := true;
      locationError := None;
    }

    /** The success callback: the reported coordinates become the user's location, the
        error is cleared and the request ends. */
    method OnPositionSuccess(c: Coords)
      requires Valid()
      modifies this
      ensures Valid()
      ensures userLocation == Some(c) && locationError.None? && !isRequestingLocation
      ensures !ShowErrorBanner() && !ShowPermissionBanner()
      ensures visibleCount == old(visibleCount) && nearbyClinics == old(nearbyClinics)
      ensures isLoadingClinics == old(isLoadingClinics) && locationPermission == old(locationPermission)
      ensures hasRequestedLocation == old(hasRequestedLocation)
      ensures locationRequestAttempted == old(locationRequestAttempted)
    {
      userLocation := Some(c);
      locationError := None;
      isRequestingLocation := false;
    }

    /** The failure callback: the request ends and the message for `code` is shown in the
        error banner. */
    method OnPositionError(code: int)
      requires Valid()
      modifies this
      ensures Valid()
      ensures !isRequestingLocation && locationError == Some(PositionErrorMessage(code))
      ensures ShowErrorBanner()
      ensures visibleCount == old(visibleCount)
      ensures userLocation == old(userLocation) && nearbyClinics == old(nearbyClinics)
      ensures isLoadingClinics == old(isLoadingClinics) && locationPermission == old(locationPermission)
      ensures hasRequestedLocation == old(hasRequestedLocation)
      ensures locationRequestAttempted == old(locationRequestAttempted)
    {
      isRequestingLocation := false;
      if code == 1 {
        locationError := Some(DeniedMessage);
      } else if code == 2 {
        locationError := Some(UnavailableMessage);
      } else if code == 3 {
        locationError := Some(TimeoutMessage);
      } else {
        locationError := Some(UnknownErrorMessage);
      }
    }

    /** The answer of the permission query made on mount (only where geolocation is
        offered): the state is recorded, and a granted permission triggers the first
        location request, once. */
    method OnPermissionQueried(state: PermissionState)
      requires Valid()
      modifies this
      ensures Valid()
      ensures geolocationSupported ==> locationPermission == Some(state)
      ensures geolocationSupported && state == Granted && !old(locationRequestAttempted) ==>
                locationRequestAttempted && isRequestingLocation && hasRequestedLocation
                && locationError.None?
      ensures !(geolocationSupported && state == Granted && !old(locationRequestAttempted)) ==>
                isRequestingLocation == old(isRequestingLocation)
                && hasRequestedLocation == old(hasRequestedLocation)
                && locationError == old(locationError)
                && locationRequestAttempted == old(locationRequestAttempted)
      ensures !geolocationSupported ==> locationPermission == old(locationPermission)
      ensures visibleCount == old(visibleCount)
      ensures userLocation == old(userLocation) && nearbyClinics == old(nearbyClinics)
      ensures isLoadingClinics == old(isLoadingClinics)
    {
      if !geolocationSupported {
        return;
      }
      locationPermission := Some(state);
      if state == Granted && !locationRequestAttempted {
        locationRequestAttempted := true;
        RequestUserLocation();
      }
    }

    /** The permission's `change` listener: the new state is recorded. */
    method OnPermissionChanged(state: PermissionState)
      requires Valid()
      modifies this
      ensures Valid()
      ensures locationPermission == Some(state)
      ensures visibleCount == old(visibleCount)
      ensures userLocation == old(userLocation) && nearbyClinics == old(nearbyClinics)
      ensures isLoadingClinics == old(isLoadingClinics) && isRequestingLocation == old(isRequestingLocation)
      ensures locationError == old(locationError) && hasRequestedLocation == old(hasRequestedLocation)
      ensures locationRequestAttempted == old(locationRequestAttempted)
    {
      locationPermission := Some(state);
    }

    /** `handleEnableLocation`: the error is cleared, the request is marked as attempted
        and a location request is made. */
    method EnableLocation()
      requires Valid()
      modifies this
      ensures Valid()
      ensures locationRequestAttempted
      ensures geolocationSupported ==> isRequestingLocation && hasRequestedLocation && locationError.None?
      ensures !geolocationSupported ==>
                locationError == Some(UnsupportedMessage)
                && isRequestingLocation == old(isRequestingLocation)
                && hasRequestedLocation == old(hasRequestedLocation)
      ensures visibleCount == old(visibleCount)
      ensures userLocation == old(userLocation) && nearbyClinics == old(nearbyClinics)
      ensures isLoadingClinics == old(isLoadingClinics) && locationPermission == old(locationPermission)
    {
      locationError := None;
      locationRequestAttempted := true;
      RequestUserLocation();
    }

    // -------------------------------------------------------------------------------
    // Nearby clinics

    /** The fetch effect starting: with a known location, loading begins and the error is
        cleared; without one nothing happens. */
    method BeginNearbyFetch()
      requires Valid()
      modifies this
      ensures Valid()
      ensures userLocation.Some? ==> isLoadingClinics && locationError.None? && ShowLoader()
      ensures userLocation.None? ==>
                isLoadingClinics == old(isLoadingClinics) && locationError == old(locationError)
      ensures visibleCount == old(visibleCount)
      ensures userLocation == old(userLocation) && nearbyClinics == old(nearbyClinics)
      ensures isRequestingLocation == old(isRequestingLocation)
      ensures locationPermission == old(locationPermission)
      ensures hasRequestedLocation == old(hasRequestedLocation)
      ensures locationRequestAttempted == old(locationRequestAttempted)
    {
      if userLocation.None? {
        return;
      }
      isLoadingClinics := true;
      locationError := None;
    }

    /** The fetch effect ending (it only starts once the user's location is known): the
        nearby clinics become what the outcome delivers, a failure is reported, and
        loading stops in every case. `seed` stands for the clock and random source the
        normaliser's fallback ids draw on. */
    method CompleteNearbyFetch(outcome: FetchOutcome, seed: IdSeed)
      requires Valid() && userLocation.Some?
      modifies this
      ensures Valid()
      ensures nearbyClinics == NearbyAfter(outcome, seed)
      ensures !isLoadingClinics
      ensures outcome.Failed? ==> locationError == Some(FetchFailedMessage)
      ensures outcome.Received? ==> locationError == old(locationError)
      ensures Display() == (if |nearbyClinics| > 0 then nearbyClinics else Catalog)
      ensures visibleCount == old(visibleCount) && userLocation == old(userLocation)
      ensures isRequestingLocation == old(isRequestingLocation)
      ensures locationPermission == old(locationPermission)
      ensures hasRequestedLocation == old(hasRequestedLocation)
      ensures locationRequestAttempted == old(locationRequestAttempted)
    {
      if outcome.Failed? {
        locationError := Some(FetchFailedMessage);
      }
      nearbyClinics := NearbyAfter(outcome, seed);
      isLoadingClinics := false;
    }
  }

  /** The results are sorted when nearby clinics are on display; otherwise the filtered
      catalog is shown in its own order. */
  lemma SortedOnlyNearby(p: Page)
    requires p.Valid()
    ensures |p.nearbyClinics| > 0 ==>
              SortedByDistance(p.Sorted()) && multiset(p.Sorted()) == multiset(p.Filtered())
    ensures |p.nearbyClinics| == 0 ==> p.Sorted() == FilterFacilities(Catalog,
              p.filters.searchQuery, p.filters.selectedType, p.filters.selectedLocation)
  {
  }

  /** Whole pages are shown: at least the first page, or every result when there are
      fewer; and "See More" is offered exactly when results remain hidden. */
  lemma VisibleIsWholePages(p: Page)
    requires p.Valid()
    ensures |p.Visible()| >= PageSize || p.Visible() == p.Sorted()
    ensures p.Visible() == p.Sorted()[..|p.Visible()|]
    ensures p.ShowsMore() <==> |p.Visible()| < |p.Sorted()|
  {
    SeeMoreRevealsMore(p.Sorted(), p.visibleCount);
  }
}

=== FILE: listing.dfy ===
/**
 * The derivations the home page recomputes on every render: its own copy of the clinic
 * normaliser, the list on display, the distinct locations, the filtered list, the
 * distance ordering and the visible page.
 */
module Listing {
  import opened Wrappers
  import opened Text
  import opened Facilities

  /** How many more facilities "See More" reveals, and how many are shown at first. */
  const PageSize: nat := 6

  // ---------------------------------------------------------------------------------
  // The page's normaliser

  /** `clinic.distance || clinic.distanceKm`: a zero or missing `distance` falls back. */
  function PageDistance(raw: RawClinic): (r: Option<real>)
    ensures r == raw.distance || r == raw.distanceKm
    ensures raw.distance.Some? && raw.distance.value != 0.0 ==> r == raw.distance
    ensures r == Some(0.0) ==> raw.distanceKm == Some(0.0)
  {
    if raw.distance.Some? && raw.distance.value != 0.0 then raw.distance else raw.distanceKm
  }

  /** `transformClinicToFacility` as written again in app/page.tsx. */
  function PageTransform(raw: RawClinic, index: Option<nat>, seed: IdSeed): (f: Facility)
    ensures f == Transform(raw, index, seed).(distanceKm := PageDistance(raw))
  {
    Facility(
      id := OrElse(raw.rawId, FallbackId(index, seed)),
      rawId := raw.rawId,
      name := OrElse(raw.name, UnnamedClinic),
      kind := if raw.kind == Some("hospital") then Hospital else Clinic,
      location := LocationOf(raw.address),
      address := AddressOf(raw.address),
      rating := RealOrElse(raw.ratingAvg, DefaultRating),
      reviewCount := IntOrElse(raw.totalReviews, 0),
      openHours := OrElse(raw.openHours, DefaultOpenHours),
      phone := OrElse(PhoneTextOf(raw.phoneNumber), DefaultPhone),
      image := OrElse(raw.image, DefaultImage(raw.kind)),
      services := raw.services.GetOr(DefaultServices),
      acceptingPatients := raw.acceptingPatients.GetOr(true),
      distanceKm := PageDistance(raw))
  }

  /** The page's normaliser agrees with the shared one in every field but the distance,
      where a non-zero `distance` wins over `distanceKm`. */
  lemma PageTransformAgrees(raw: RawClinic, index: Option<nat>, seed: IdSeed)
    ensures (raw.distance.None? || raw.distance == Some(0.0))
            ==> PageTransform(raw, index, seed) == Transform(raw, index, seed)
    ensures (raw.distance.Some? && raw.distance != Some(0.0))
            ==> PageTransform(raw, index, seed).distanceKm == raw.distance
  {
  }

  /** The page's `transformClinicsToFacilities`. */
  function PageTransformAll(raws: seq<RawClinic>, seed: IdSeed): (fs: seq<Facility>)
    ensures |fs| == |raws|
    ensures forall i :: 0 <= i < |raws| ==> fs[i] == PageTransform(raws[i], Some(i), seed)
  {
    seq(|raws|, i requires 0 <= i < |raws| => PageTransform(raws[i], Some(i), seed))
  }

  // ---------------------------------------------------------------------------------
  // The list on display

  /** `displayFacilities`: the nearby clinics when there are any, else the catalog;
      never empty. */
  function DisplayFacilities(nearby: seq<Facility>): (r: seq<Facility>)
    ensures |nearby| > 0 ==> r == nearby
    ensures |nearby| == 0 ==> r == Catalog
    ensures |r| > 0
  {
    CatalogShape();
    if |nearby| > 0 then nearby else Catalog
  }

  // ---------------------------------------------------------------------------------
  // Distinct locations: `Array.from(new Set(xs))`

  predicate NoDuplicates<T(==)>(xs: seq<T>) {
    forall i, j :: 0 <= i < j < |xs| ==> xs[i] != xs[j]
  }

  /** The position of the first occurrence of `x` in `xs`. */
  function FirstIndex(xs: seq<string>, x: string): (k: nat)
    requires x in xs
    ensures k < |xs| && xs[k] == x && x !in xs[..k]
  {
    if xs[0] == x then 0
    else
      var k := FirstIndex(xs[1..], x);
      assert xs[..k + 1] == [xs[0]] + xs[1..][..k];
      k + 1
  }

  /** The distinct values of `xs`, each kept where it first occurs: the elements are
      inserted into a set one by one, and a set iterates in insertion order. */
  function Dedup(xs: seq<string>): (r: seq<string>)
    ensures forall x :: x in r <==> x in xs
    ensures NoDuplicates(r)
  {
    if xs == [] then []
    else
      var init := xs[..|xs| - 1];
      var last := xs[|xs| - 1];
      assert xs == init + [last];
      var p := Dedup(init);
      if last in p then p else p + [last]
  }

  /** A value met in the prefix without the last element has the same first index in
      the whole sequence. */
  lemma FirstIndexInInit(xs: seq<string>, y: string)
    requires |xs| > 0 && y in xs[..|xs| - 1]
    ensures FirstIndex(xs, y) == FirstIndex(xs[..|xs| - 1], y)
  {
    var init := xs[..|xs| - 1];
    var k := FirstIndex(init, y);
    var k' := FirstIndex(xs, y);
    assert xs[..k] == init[..k];
  }

  /** `Dedup` keeps the first-occurrence order of `xs`. */
  lemma {:induction false} DedupKeepsFirstOccurrenceOrder(xs: seq<string>)
    ensures forall i, j :: 0 <= i < j < |Dedup(xs)| ==>
              FirstIndex(xs, Dedup(xs)[i]) < FirstIndex(xs, Dedup(xs)[j])
  {
    if xs != [] {
      var init := xs[..|xs| - 1];
      var last := xs[|xs| - 1];
      var p := Dedup(init);
      var r := Dedup(xs);
      DedupKeepsFirstOccurrenceOrder(init);
      forall y | y in p ensures FirstIndex(xs, y) == FirstIndex(init, y) && FirstIndex(xs, y) < |xs| - 1 {
        FirstIndexInInit(xs, y);
      }
      if last !in p {
        assert last !in init;
        assert xs[..|xs| - 1] == init;
        assert FirstIndex(xs, last) == |xs| - 1;
        forall i, j | 0 <= i < j < |r| ensures FirstIndex(xs, r[i]) < FirstIndex(xs, r[j]) {
          assert r[i] == p[i];
          if j < |p| {
            assert r[j] == p[j];
          }
        }
      }
    }
  }

  function LocationsOf(fs: seq<Facility>): (ls: seq<string>)
    ensures |ls| == |fs| && forall i :: 0 <= i < |fs| ==> ls[i] == fs[i].location
  {
    seq(|fs|, i requires 0 <= i < |fs| => fs[i].location)
  }

  /** `locations`: every location of the displayed list exactly once, in the order of
      first occurrence. */
  function Locations(display: seq<Facility>): (r: seq<string>)
    ensures NoDuplicates(r)
    ensures forall i :: 0 <= i < |display| ==> display[i].location in r
    ensures forall l :: l in r ==> exists i :: 0 <= i < |display| && display[i].location == l
  {
    var ls := LocationsOf(display);
    assert forall i :: 0 <= i < |display| ==> ls[i] in ls;
    Dedup(ls)
  }

  lemma LocationsSpec(display: seq<Facility>)
    ensures forall l :: l in Locations(display) <==> exists f :: f in display && f.location == l
    ensures NoDuplicates(Locations(display))
    ensures forall i, j :: 0 <= i < j < |Locations(display)| ==>
              FirstIndex(LocationsOf(display), Locations(display)[i])
              < FirstIndex(LocationsOf(display), Locations(display)[j])
  {
    var ls := LocationsOf(display);
    forall l ensures l in ls <==> exists f :: f in display && f.location == l {
      if l in ls {
        var i :| 0 <= i < |ls| && ls[i] == l;
        assert display[i] in display;
      }
      if exists f :: f in display && f.location == l {
        var f :| f in display && f.location == l;
        var i :| 0 <= i < |display| && display[i] == f;
        assert ls[i] == l;
      }
    }
    DedupKeepsFirstOccurrenceOrder(ls);
  }

  // ---------------------------------------------------------------------------------
  // Filtering

  function TypeName(kind: FacilityType): string {
    if kind == Hospital then "hospital" else "clinic"
  }

  /** The query is empty, or occurs, ignoring case, in the name or in some service. */
  predicate MatchesSearch(f: Facility, query: string)
    ensures query == "" ==> MatchesSearch(f, query)
    ensures ToLower(query) == ToLower(f.name) ==> MatchesSearch(f, query)
  {
    query == ""
    || Contains(ToLower(f.name), ToLower(query))
    || exists s :: s in f.services && Contains(ToLower(s), ToLower(query))
  }

  /** "all" keeps every kind, "hospital" and "clinic" keep that kind, any other value
      keeps nothing. */
  predicate MatchesType(f: Facility, selectedType: string)
    ensures selectedType == "hospital" ==> (MatchesType(f, selectedType) <==> f.kind == Hospital)
    ensures selectedType == "clinic" ==> (MatchesType(f, selectedType) <==> f.kind == Clinic)
    ensures selectedType !in {"all", "hospital", "clinic"} ==> !MatchesType(f, selectedType)
  {
    selectedType == "all" || TypeName(f.kind) == selectedType
  }

  /** Lower-cased, with every whitespace character removed: the non-space characters of
      the lower-cased text, in their order, each as often as it occurs there. */
  function NormalizeLocation(s: string): (r: string)
    ensures forall c :: c in r ==> !IsSpace(c) && !('A' <= c <= 'Z')
    ensures IsSubsequence(r, ToLower(s))
    ensures forall c :: multiset(r)[c] == if IsSpace(c) then 0 else multiset(ToLower(s))[c]
  {
    RemoveWhitespaceSubsequence(ToLower(s));
    AllRemoveWhitespaceCounts(ToLower(s));
    RemoveWhitespace(ToLower(s))
  }

  /** Deleting characters leaves a subsequence. */
  lemma {:induction false} RemoveWhitespaceSubsequence(s: string)
    ensures IsSubsequence(RemoveWhitespace(s), s)
    decreases |s|
  {
    if s != [] {
      RemoveWhitespaceSubsequence(s[1..]);
      var rest := RemoveWhitespace(s[1..]);
      var r := RemoveWhitespace(s);
      if IsSpace(s[0]) {
        assert r == rest;
      } else {
        assert r == [s[0]] + rest;
        assert r[0] == s[0] && r[1..] == rest;
      }
    }
  }

  /** A facility's own location, in any letter case, selects it; a location other than
      "all" that selects it has the same non-space characters, up to letter case, each as
      often. */
  predicate MatchesLocation(f: Facility, selectedLocation: string)
    ensures ToLower(selectedLocation) == ToLower(f.location) ==> MatchesLocation(f, selectedLocation)
    ensures selectedLocation != "all" && MatchesLocation(f, selectedLocation) ==>
              forall c :: !IsSpace(c) ==>
                multiset(ToLower(f.location))[c] == multiset(ToLower(selectedLocation))[c]
  {
    selectedLocation == "all" || NormalizeLocation(f.location) == NormalizeLocation(selectedLocation)
  }

  predicate Matches(f: Facility, query: string, selectedType: string, selectedLocation: string) {
    MatchesSearch(f, query) && MatchesType(f, selectedType) && MatchesLocation(f, selectedLocation)
  }

  /** `a` can be obtained from `b` by deleting elements. */
  predicate IsSubsequence<T(==)>(a: seq<T>, b: seq<T>)
    decreases |b|
  {
    a == [] || (b != [] && ((a[0] == b[0] && IsSubsequence(a[1..], b[1..])) || IsSubsequence(a, b[1..])))
  }

  /** `filteredFacilities`: the displayed entries that match all three filters, in order,
      each as often as it is displayed. */
  function FilterFacilities(xs: seq<Facility>, query: string, selectedType: string,
                            selectedLocation: string): (r: seq<Facility>)
    ensures IsSubsequence(r, xs)
    ensures forall f :: multiset(r)[f]
              == if Matches(f, query, selectedType, selectedLocation) then multiset(xs)[f] else 0
  {
    if xs == [] then []
    else
      var rest := FilterFacilities(xs[1..], query, selectedType, selectedLocation);
      assert xs == [xs[0]] + xs[1..];
      if Matches(xs[0], query, selectedType, selectedLocation) then
        assert ([xs[0]] + rest)[1..] == rest;
        [xs[0]] + rest
      else
        assert rest != [] ==> rest[0] in multiset(rest);
        rest
  }

  /** A facility is kept exactly when it is displayed and matches. */
  lemma FilterMembership(xs: seq<Facility>, query: string, selectedType: string,
                         selectedLocation: string, f: Facility)
    ensures f in FilterFacilities(xs, query, selectedType, selectedLocation)
            <==> f in xs && Matches(f, query, selectedType, selectedLocation)
  {
    var r := FilterFacilities(xs, query, selectedType, selectedLocation);
    assert f in r <==> multiset(r)[f] > 0;
    assert f in xs <==> multiset(xs)[f] > 0;
  }

  /** The reset filters keep every list whole. */
  lemma DefaultFiltersKeepEveryList()
    ensures forall xs :: FilterFacilities(xs, "", "all", "all") == xs
  {
    forall xs ensures FilterFacilities(xs, "", "all", "all") == xs {
      FilterDefaultsKeepAll(xs);
    }
  }

  /** With the reset filters ("", "all", "all") nothing is filtered out. */
  lemma {:induction false} FilterDefaultsKeepAll(xs: seq<Facility>)
    ensures FilterFacilities(xs, "", "all", "all") == xs
  {
    if xs != [] {
      FilterDefaultsKeepAll(xs[1..]);
      assert [xs[0]] + xs[1..] == xs;
    }
  }

  /** Search and location filters ignore the letter case of what the user typed. */
  lemma FiltersIgnoreCase(f: Facility, query: string, selectedLocation: string)
    ensures MatchesSearch(f, query) == MatchesSearch(f, ToLower(query))
    ensures selectedLocation != "all" && ToLower(selectedLocation) != "all"
            ==> MatchesLocation(f, selectedLocation) == MatchesLocation(f, ToLower(selectedLocation))
  {
    ToLowerIdempotent(query);
    ToLowerIdempotent(selectedLocation);
  }

  /** A search query matches when it is empty or is, ignoring case, a substring of the
      name or of some service. */
  lemma MatchesSearchIffSubstring(f: Facility, query: string)
    ensures MatchesSearch(f, query) <==>
              query == ""
              || (exists i :: OccursAt(ToLower(f.name), ToLower(query), i))
              || (exists s, i :: s in f.services && OccursAt(ToLower(s), ToLower(query), i))
  {
    ContainsIffInfix(ToLower(f.name), ToLower(query));
    forall s | s in f.services {
      ContainsIffInfix(ToLower(s), ToLower(query));
    }
  }

  // ---------------------------------------------------------------------------------
  // Ordering by distance: `(a.distanceKm || Infinity) - (b.distanceKm || Infinity)`

  /** The sort key: a missing or zero distance counts as +Infinity. */
  datatype DistanceKey = Finite(d: real) | Unknown

  function KeyOf(f: Facility): (k: DistanceKey)
    ensures k.Unknown? <==> f.distanceKm.None? || f.distanceKm == Some(0.0)
    ensures k.Finite? ==> f.distanceKm == Some(k.d)
  {
    if f.distanceKm.Some? && f.distanceKm.value != 0.0 then Finite(f.distanceKm.value) else Unknown
  }

  /** The comparator's difference is not positive. Two unknown keys compare as equal
      (`Infinity - Infinity` is NaN, which a sort treats as 0). */
  predicate KeyLe(a: DistanceKey, b: DistanceKey) {
    b.Unknown? || (a.Finite? && a.d <= b.d)
  }

  /** The comparator orders keys consistently: reflexive, total and transitive, as a
      sort requires of it. */
  lemma KeyLeIsTotalPreorder(a: DistanceKey, b: DistanceKey, c: DistanceKey)
    ensures KeyLe(a, a)
    ensures KeyLe(a, b) || KeyLe(b, a)
    ensures KeyLe(a, b) && KeyLe(b, c) ==> KeyLe(a, c)
  {
  }

  predicate SortedByDistance(s: seq<Facility>) {
    forall i, j :: 0 <= i < j < |s| ==> KeyLe(KeyOf(s[i]), KeyOf(s[j]))
  }

  /** The elements of `s` whose key is `k`, in order. */
  function WithKey(s: seq<Facility>, k: DistanceKey): seq<Facility> {
    if s == [] then [] else (if KeyOf(s[0]) == k then [s[0]] else []) + WithKey(s[1..], k)
  }

  /** `x` placed before the first element whose key is not below its own. */
  function InsertByDistance(x: Facility, s: seq<Facility>): seq<Facility> {
    if s == [] then [x]
    else if KeyLe(KeyOf(x), KeyOf(s[0])) then [x] + s
    else [s[0]] + InsertByDistance(x, s[1..])
  }

  /** A stable sort by distance. */
  function SortByDistance(xs: seq<Facility>): (r: seq<Facility>)
    ensures SortedByDistance(r)
    ensures multiset(r) == multiset(xs)
  {
    if xs == [] then []
    else
      var rest := SortByDistance(xs[1..]);
      SortStep(xs, rest);
      InsertByDistance(xs[0], rest)
  }

  /** Inserting the head into the sorted tail sorts the whole list. */
  lemma SortStep(xs: seq<Facility>, rest: seq<Facility>)
    requires xs != [] && SortedByDistance(rest) && multiset(rest) == multiset(xs[1..])
    ensures SortedByDistance(InsertByDistance(xs[0], rest))
    ensures multiset(InsertByDistance(xs[0], rest)) == multiset(xs)
  {
    InsertByDistanceSorted(xs[0], rest);
    InsertByDistancePermutes(xs[0], rest);
    assert xs == [xs[0]] + xs[1..];
  }

  lemma {:induction false} InsertByDistancePermutes(x: Facility, s: seq<Facility>)
    ensures multiset(InsertByDistance(x, s)) == multiset(s) + multiset{x}
  {
    if s != [] && !KeyLe(KeyOf(x), KeyOf(s[0])) {
      InsertByDistancePermutes(x, s[1..]);
      assert s == [s[0]] + s[1..];
    }
  }

  /** Every element of `s` has a key no smaller than `k`. */
  predicate KeysAtLeast(k: DistanceKey, s: seq<Facility>) {
    forall j :: 0 <= j < |s| ==> KeyLe(k, KeyOf(s[j]))
  }

  lemma SortedCons(a: Facility, t: seq<Facility>)
    requires KeysAtLeast(KeyOf(a), t) && SortedByDistance(t)
    ensures SortedByDistance([a] + t)
  {
    var r := [a] + t;
    forall i, j | 0 <= i < j < |r| ensures KeyLe(KeyOf(r[i]), KeyOf(r[j])) {
      assert r[j] == t[j - 1];
      if i > 0 {
        assert r[i] == t[i - 1];
      }
    }
  }

  lemma {:induction false} InsertByDistanceKeysAtLeast(k: DistanceKey, x: Facility, s: seq<Facility>)
    requires KeysAtLeast(k, s) && KeyLe(k, KeyOf(x))
    ensures KeysAtLeast(k, InsertByDistance(x, s))
  {
    if s != [] && !KeyLe(KeyOf(x), KeyOf(s[0])) {
      InsertByDistanceKeysAtLeast(k, x, s[1..]);
      var t := InsertByDistance(x, s[1..]);
      assert InsertByDistance(x, s) == [s[0]] + t;
    }
  }

  lemma {:induction false} InsertByDistanceSorted(x: Facility, s: seq<Facility>)
    requires SortedByDistance(s)
    ensures SortedByDistance(InsertByDistance(x, s))
  {
    if s == [] {
    } else if KeyLe(KeyOf(x), KeyOf(s[0])) {
      assert KeysAtLeast(KeyOf(x), s);
      SortedCons(x, s);
    } else {
      var t := InsertByDistance(x, s[1..]);
      InsertByDistanceSorted(x, s[1..]);
      assert KeysAtLeast(KeyOf(s[0]), s[1..]);
      InsertByDistanceKeysAtLeast(KeyOf(s[0]), x, s[1..]);
      SortedCons(s[0], t);
    }
  }

  /** `WithKey` over a sequence with a given first element. */
  lemma WithKeyCons(h: Facility, t: seq<Facility>, k: DistanceKey)
    ensures WithKey([h] + t, k) == (if KeyOf(h) == k then [h] else []) + WithKey(t, k)
  {
    assert ([h] + t)[0] == h && ([h] + t)[1..] == t;
  }

  lemma {:induction false} InsertByDistanceWithKey(x: Facility, s: seq<Facility>, k: DistanceKey)
    ensures WithKey(InsertByDistance(x, s), k)
            == if KeyOf(x) == k then [x] + WithKey(s, k) else WithKey(s, k)
  {
    if s == [] {
      WithKeyCons(x, [], k);
    } else if KeyLe(KeyOf(x), KeyOf(s[0])) {
      WithKeyCons(x, s, k);
    } else {
      var t := InsertByDistance(x, s[1..]);
      assert InsertByDistance(x, s) == [s[0]] + t;
      InsertByDistanceWithKey(x, s[1..], k);
      WithKeyCons(s[0], t, k);
      assert s == [s[0]] + s[1..];
      WithKeyCons(s[0], s[1..], k);
    }
  }


  /** The distance order is a stable sort: the result is ordered by key, is a
      permutation of the input, and keeps entries with equal keys in input order. */
  lemma {:induction false} SortByDistanceSpec(xs: seq<Facility>)
    ensures SortedByDistance(SortByDistance(xs))
    ensures multiset(SortByDistance(xs)) == multiset(xs)
    ensures forall k :: WithKey(SortByDistance(xs), k) == WithKey(xs, k)
  {
    if xs != [] {
      var rest := SortByDistance(xs[1..]);
      assert SortByDistance(xs) == InsertByDistance(xs[0], rest);
      SortByDistanceSpec(xs[1..]);
      forall k ensures WithKey(SortByDistance(xs), k) == WithKey(xs, k) {
        InsertByDistanceWithKey(xs[0], rest, k);
      }
    }
  }

  lemma {:induction false} WithKeyMember(s: seq<Facility>, k: DistanceKey, y: Facility)
    requires y in WithKey(s, k)
    ensures y in s && KeyOf(y) == k
  {
    if KeyOf(s[0]) == k && y == s[0] {
    } else {
      WithKeyMember(s[1..], k, y);
    }
  }

  lemma WithKeyOfHead(s: seq<Facility>)
    requires s != []
    ensures WithKey(s, KeyOf(s[0])) != []
  {
  }

  /** The first element of a sorted sequence has a key no larger than any element's. */
  lemma SortedHeadLeast(s: seq<Facility>, y: Facility)
    requires SortedByDistance(s) && y in s
    ensures KeyLe(KeyOf(s[0]), KeyOf(y))
  {
    var i :| 0 <= i < |s| && s[i] == y;
    if i == 0 {
      assert KeyLe(KeyOf(y), KeyOf(y));
    }
  }

  /** Two sorted sequences with the same groups of equal keys start alike. */
  lemma SameGroupsSameHead(r1: seq<Facility>, r2: seq<Facility>)
    requires r1 != [] && r2 != []
    requires SortedByDistance(r1) && SortedByDistance(r2)
    requires forall k :: WithKey(r1, k) == WithKey(r2, k)
    ensures r1[0] == r2[0]
  {
    var k1, k2 := KeyOf(r1[0]), KeyOf(r2[0]);
    WithKeyOfHead(r1);
    WithKeyOfHead(r2);
    assert WithKey(r1, k1)[0] == r1[0];
    assert WithKey(r2, k2)[0] == r2[0];
    var y2, y1 := WithKey(r2, k1)[0], WithKey(r1, k2)[0];
    WithKeyMember(r2, k1, y2);
    SortedHeadLeast(r2, y2);
    WithKeyMember(r1, k2, y1);
    SortedHeadLeast(r1, y1);
    assert k1 == k2;
  }

  /** Removing the same first element leaves the same groups of equal keys. */
  lemma SameGroupsTails(r1: seq<Facility>, r2: seq<Facility>)
    requires r1 != [] && r2 != [] && r1[0] == r2[0]
    requires forall k :: WithKey(r1, k) == WithKey(r2, k)
    ensures forall k :: WithKey(r1[1..], k) == WithKey(r2[1..], k)
  {
    forall k ensures WithKey(r1[1..], k) == WithKey(r2[1..], k) {
      var head := if KeyOf(r1[0]) == k then [r1[0]] else [];
      assert WithKey(r1, k) == head + WithKey(r1[1..], k);
      assert WithKey(r2, k) == head + WithKey(r2[1..], k);
      assert WithKey(r1[1..], k) == WithKey(r1, k)[|head|..];
      assert WithKey(r2[1..], k) == WithKey(r2, k)[|head|..];
    }
  }

  /** A stable sort by distance has only one possible result: any ordered sequence that
      keeps every group of equal keys as it is in the input equals the insertion sort.
      So `SortByDistance` stands for every stable sort, `Array.prototype.sort` included. */
  lemma {:induction false} StableSortUnique(r1: seq<Facility>, r2: seq<Facility>)
    requires SortedByDistance(r1) && SortedByDistance(r2)
    requires forall k :: WithKey(r1, k) == WithKey(r2, k)
    ensures r1 == r2
    decreases |r1|
  {
    if r1 != [] {
      WithKeyOfHead(r1);
    }
    if r2 != [] {
      WithKeyOfHead(r2);
    }
    if r1 != [] && r2 != [] {
      SameGroupsSameHead(r1, r2);
      SameGroupsTails(r1, r2);
      assert SortedByDistance(r1[1..]) && SortedByDistance(r2[1..]);
      StableSortUnique(r1[1..], r2[1..]);
      assert r1 == [r1[0]] + r1[1..] && r2 == [r2[0]] + r2[1..];
    }
  }

  /** Every stable ordering of `xs` by distance is `SortByDistance(xs)`. */
  lemma StableSortIsSortByDistance(xs: seq<Facility>, r: seq<Facility>)
    requires SortedByDistance(r)
    requires forall k :: WithKey(r, k) == WithKey(xs, k)
    ensures r == SortByDistance(xs)
  {
    SortByDistanceSpec(xs);
    StableSortUnique(r, SortByDistance(xs));
  }

  /** `sortedFacilities`: sorted only when the user's location is known and nearby
      clinics are shown; otherwise the filtered list as it is. */
  function SortedFacilities(filtered: seq<Facility>, hasUserLocation: bool,
                            nearbyCount: nat): (r: seq<Facility>)
    ensures multiset(r) == multiset(filtered)
    ensures hasUserLocation && nearbyCount > 0 ==> SortedByDistance(r)
    ensures !(hasUserLocation && nearbyCount > 0) ==> r == filtered
    ensures hasUserLocation && nearbyCount > 0 ==> r == SortByDistance(filtered)
    ensures forall k :: WithKey(r, k) == WithKey(filtered, k)
  {
    SortByDistanceSpec(filtered);
    if hasUserLocation && nearbyCount > 0 then SortByDistance(filtered) else filtered
  }

  // ---------------------------------------------------------------------------------
  // Paging

  /** `sortedFacilities.slice(0, visibleCount)`. */
  function VisibleFacilities(sorted: seq<Facility>, visibleCount: nat): (r: seq<Facility>)
    ensures |r| == if visibleCount < |sorted| then visibleCount else |sorted|
    ensures r == sorted[..|r|]
  {
    if visibleCount < |sorted| then sorted[..visibleCount] else sorted
  }

  /** `hasMore`. */
  predicate HasMore(sorted: seq<Facility>, visibleCount: nat)
    ensures HasMore(sorted, visibleCount) <==> |VisibleFacilities(sorted, visibleCount)| < |sorted|
  {
    visibleCount < |sorted|
  }

  /** "See More" is offered exactly when some sorted entry is not visible, and revealing
      another page keeps what is shown and shows more. */
  lemma SeeMoreRevealsMore(sorted: seq<Facility>, visibleCount: nat)
    ensures HasMore(sorted, visibleCount) <==> |VisibleFacilities(sorted, visibleCount)| < |sorted|
    ensures IsPrefix(VisibleFacilities(sorted, visibleCount),
                     VisibleFacilities(sorted, visibleCount + PageSize))
    ensures HasMore(sorted, visibleCount) ==>
              |VisibleFacilities(sorted, visibleCount + PageSize)|
              > |VisibleFacilities(sorted, visibleCount)|
    ensures !HasMore(sorted, visibleCount) ==> VisibleFacilities(sorted, visibleCount) == sorted
  {
  }

  predicate IsPrefix<T(==)>(a: seq<T>, b: seq<T>) {
    |a| <= |b| && b[..|a|] == a
  }
}

=== FILE: numerals.dfy ===
/**
 * Decimal text of integers, as JavaScript's `String(n)` / `n.toString()` writes a whole
 * number and as `JSON.parse` reads one back.
 */
module Numerals {
  import opened Wrappers

  predicate IsDigit(c: char) {
    '0' <= c <= '9'
  }

  function DigitChar(d: nat): (c: char)
    requires d < 10
    ensures IsDigit(c)
  {
    ('0' as int + d) as char
  }

  function DigitValue(c: char): (d: nat)
    requires IsDigit(c)
    ensures d < 10
  {
    c as int - '0' as int
  }

  /** Decimal digits of `n`, most significant first, without leading zeros. */
  function NatToString(n: nat): (s: string)
    ensures |s| >= 1
    ensures forall i :: 0 <= i < |s| ==> IsDigit(s[i])
    ensures s[0] == '0' <==> n == 0
    ensures n == 0 ==> s == "0"
  {
    if n < 10 then [DigitChar(n)] else NatToString(n / 10) + [DigitChar(n % 10)]
  }

  /** `String(i)` for a whole number: a minus sign for negatives, then the digits. */
  function IntToString(i: int): (s: string)
    ensures |s| >= 1
    ensures ',' !in s && '}' !in s
  {
    if i < 0 then "-" + NatToString(-i) else NatToString(i)
  }

  /** The value of a non-empty run of digits. */
  function DigitsValue(s: string): nat
    requires forall i :: 0 <= i < |s| ==> IsDigit(s[i])
  {
    if s == [] then 0 else DigitsValue(s[..|s| - 1]) * 10 + DigitValue(s[|s| - 1])
  }

  predicate AllDigits(s: string) {
    forall i :: 0 <= i < |s| ==> IsDigit(s[i])
  }

  /** The digits of a JSON integer: `0`, or a non-zero digit followed by digits. */
  predicate CanonicalDigits(s: string) {
    s != [] && AllDigits(s) && (s[0] == '0' ==> |s| == 1)
  }

  /** Reads a natural number written as JSON writes one: decimal digits with no leading
      zero. */
  function ParseNat(s: string): (r: Option<nat>)
    ensures r.Some? <==> CanonicalDigits(s)
  {
    if CanonicalDigits(s) then Some(DigitsValue(s)) else None
  }

  /** Reads a JSON integer: an optional minus sign followed by the digits of a natural
      number. `-0` reads as 0. */
  function ParseInt(s: string): (r: Option<int>)
    ensures r.Some? ==> s != []
  {
    if s != [] && s[0] == '-' then
      match ParseNat(s[1..])
      case Some(n) => Some(-(n as int))
      case None => None
    else
      match ParseNat(s)
      case Some(n) => Some(n)
      case None => None
  }

  /** Reading back the digits of `n` gives `n`. */
  lemma {:induction false} ParseNatOfString(n: nat)
    ensures ParseNat(NatToString(n)) == Some(n)
  {
    var s := NatToString(n);
    if n < 10 {
      assert s == [DigitChar(n)];
      assert s[..|s| - 1] == [];
      assert DigitValue(s[|s| - 1]) == n;
      assert DigitsValue(s) == DigitsValue(s[..|s| - 1]) * 10 + DigitValue(s[|s| - 1]);
    } else {
      ParseNatOfString(n / 10);
      var init := NatToString(n / 10);
      assert s == init + [DigitChar(n % 10)];
      assert s[..|s| - 1] == init;
      assert DigitValue(s[|s| - 1]) == n % 10;
      assert DigitsValue(s) == DigitsValue(init) * 10 + n % 10;
    }
  }

  /** Reading back the text of `i` gives `i`. */
  lemma ParseIntOfString(i: int)
    ensures ParseInt(IntToString(i)) == Some(i)
  {
    if i < 0 {
      ParseNatOfString(-i);
      assert IntToString(i)[1..] == NatToString(-i);
    } else {
      ParseNatOfString(i);
    }
  }

  /** Digits without a leading zero have a positive value. */
  lemma {:induction false} DigitsValuePositive(s: string)
    requires s != [] && AllDigits(s) && s[0] != '0'
    ensures DigitsValue(s) >= 1
  {
    var init := s[..|s| - 1];
    if |s| == 1 {
      assert init == [];
      assert DigitsValue(s) == DigitValue(s[0]);
    } else {
      assert init[0] == s[0];
      DigitsValuePositive(init);
    }
  }

  /** The only text `ParseNat` reads as `n` is the decimal text of `n`. */
  lemma {:induction false} ParseNatCanonical(s: string)
    requires ParseNat(s).Some?
    ensures s == NatToString(ParseNat(s).value)
    decreases |s|
  {
    var init := s[..|s| - 1];
    var d := DigitValue(s[|s| - 1]);
    assert DigitChar(d) == s[|s| - 1];
    if |s| == 1 {
      assert init == [];
      assert DigitsValue(s) == d;
    } else {
      assert init[0] == s[0];
      assert ParseNat(init).Some?;
      ParseNatCanonical(init);
      DigitsValuePositive(init);
      var m := DigitsValue(init);
      assert DigitsValue(s) == m * 10 + d;
      assert (m * 10 + d) / 10 == m && (m * 10 + d) % 10 == d;
      assert s == init + [s[|s| - 1]];
    }
  }

  /** The texts JSON reads as the integer `i`: its decimal text, and also `-0` for 0. */
  function IntTexts(i: int): (ts: set<string>)
    ensures IntToString(i) in ts
    ensures forall t :: t in ts ==> t == IntToString(i) || (i == 0 && t == "-0")
  {
    if i == 0 then {"0", "-0"} else {IntToString(i)}
  }

  /** `ParseInt` reads exactly the texts of `i` as `i`. */
  lemma ParseIntIff(s: string, i: int)
    ensures ParseInt(s) == Some(i) <==> s in IntTexts(i)
  {
    if ParseInt(s) == Some(i) {
      ParseIntReadsText(s, i);
    }
    if s in IntTexts(i) {
      ParseIntOfString(i);
      if s == "-0" {
        ParseNatOfString(0);
        assert s[1..] == "0";
      }
    }
  }

  /** A text read as `i` is the decimal text of `i`, or `-0`. */
  lemma ParseIntReadsText(s: string, i: int)
    requires ParseInt(s) == Some(i)
    ensures s == IntToString(i) || (i == 0 && s == "-0")
  {
    if s[0] == '-' {
      var digits := s[1..];
      ParseNatCanonical(digits);
      var n := ParseNat(digits).value;
      assert i == -(n as int);
      assert s == "-" + NatToString(n);
      if n == 0 {
        assert NatToString(n) == "0";
      }
    } else {
      ParseNatCanonical(s);
    }
  }

  /** Distinct numbers have distinct decimal texts. */
  lemma NatToStringInjective(m: nat, n: nat)
    requires NatToString(m) == NatToString(n)
    ensures m == n
  {
    ParseNatOfString(m);
    ParseNatOfString(n);
  }
}

=== FILE: search_filters.dfy ===
/**
 * The filter bar: the filter values it edits through the page's setters, the
 * "active filters" test and clear-all, the title-casing of location names and the
 * options of the location drop-down.
 */
module SearchFilters {
  import opened Text
  import opened Facilities
  import opened Listing

  /** The search query, type and location the page holds and the filter bar sets. */
  class FilterState {
    var searchQuery: string
    var selectedType: string
    var selectedLocation: string

    /** The page's initial filter values. */
    constructor ()
      ensures searchQuery == "" && selectedType == "all" && selectedLocation == "all"
      ensures !HasActiveFilters()
    {
      searchQuery, selectedType, selectedLocation := "", "all", "all";
    }

    /** `hasActiveFilters`: some filter differs from its reset value. */
    predicate HasActiveFilters()
      reads this
      ensures !HasActiveFilters() ==> searchQuery == "" && selectedType == "all" && selectedLocation == "all"
      ensures !HasActiveFilters() ==>
                forall xs :: FilterFacilities(xs, searchQuery, selectedType, selectedLocation) == xs
    {
      DefaultFiltersKeepEveryList();
      selectedType != "all" || selectedLocation != "all" || searchQuery != ""
    }

    /** `onSearchChange(value)`. */
    method SetSearchQuery(value: string)
      modifies this
      ensures searchQuery == value
      ensures selectedType == old(selectedType) && selectedLocation == old(selectedLocation)
    {
      searchQuery := value;
    }

    /** `onTypeChange(value)`. */
    method SetSelectedType(value: string)
      modifies this
      ensures selectedType == value
      ensures searchQuery == old(searchQuery) && selectedLocation == old(selectedLocation)
    {
      selectedType := value;
    }

    /** `onLocationChange(value)`. */
    method SetSelectedLocation(value: string)
      modifies this
      ensures selectedLocation == value
      ensures searchQuery == old(searchQuery) && selectedType == old(selectedType)
    {
      selectedLocation := value;
    }

    /** `handleClearAll`: every filter back to its reset value, after which no filter is
        active. */
    method ClearAll()
      modifies this
      ensures searchQuery == "" && selectedType == "all" && selectedLocation == "all"
      ensures !HasActiveFilters()
    {
      SetSearchQuery("");
      SetSelectedType("all");
      SetSelectedLocation("all");
    }
  }

  /** With no active filter, filtering keeps the whole list. */
  lemma InactiveFiltersKeepAll(filters: FilterState, xs: seq<Facility>)
    requires !filters.HasActiveFilters()
    ensures FilterFacilities(xs, filters.searchQuery, filters.selectedType, filters.selectedLocation) == xs
  {
    FilterDefaultsKeepAll(xs);
  }

  // ---------------------------------------------------------------------------------
  // Location names

  /** No lower-case letter first and no upper-case letter after it. */
  predicate TitleCased(word: string) {
    (word == [] || !('a' <= word[0] <= 'z')) && forall i :: 1 <= i < |word| ==> !('A' <= word[i] <= 'Z')
  }

  /** `word.charAt(0).toUpperCase() + word.slice(1).toLowerCase()`: the same letters, with
      only the first one in upper case. */
  function FormatWord(word: string): (r: string)
    ensures |r| == |word|
    ensures TitleCased(r)
    ensures ToLower(r) == ToLower(word)
  {
    if word == [] then []
    else
      LowerCharIdempotent(word[0]);
      ToLowerIdempotent(word[1..]);
      ToLowerAppend([UpperChar(word[0])], ToLower(word[1..]));
      ToLowerAppend([word[0]], word[1..]);
      assert word == [word[0]] + word[1..];
      [UpperChar(word[0])] + ToLower(word[1..])
  }

  function FormatWords(words: seq<string>): (r: seq<string>)
    ensures |r| == |words|
    ensures forall i :: 0 <= i < |words| ==> r[i] == FormatWord(words[i])
  {
    seq(|words|, i requires 0 <= i < |words| => FormatWord(words[i]))
  }

  /** `formatLocationName`: split on single spaces, title-case each word, rejoin. The
      result has the same letters as the name, up to letter case. */
  function FormatLocationName(location: string): (r: string)
    ensures |r| == |location|
    ensures ToLower(r) == ToLower(location)
  {
    var words := Split(location, ' ');
    JoinSameShape(FormatWords(words), words, ' ');
    JoinToLower(FormatWords(words), words, ' ');
    JoinSplit(location, ' ');
    Join(FormatWords(words), ' ')
  }

  lemma FormatWordIdempotent(word: string)
    ensures FormatWord(FormatWord(word)) == FormatWord(word)
  {
    if word != [] {
      LowerCharIdempotent(word[0]);
      ToLowerIdempotent(word[1..]);
      assert FormatWord(word)[1..] == ToLower(word[1..]);
    }
  }

  /** Title-casing a word neither adds nor removes a space. */
  lemma FormatWordKeepsSpaces(word: string)
    ensures ' ' in FormatWord(word) <==> ' ' in word
  {
    if word != [] {
      var r := FormatWord(word);
      forall i | 0 <= i < |word| ensures r[i] == ' ' <==> word[i] == ' ' {
        if i > 0 {
          assert r[i] == LowerChar(word[i]);
        }
      }
    }
  }

  /** The words of the formatted name are the formatted words of the name: as many words,
      empty ones included, each title-cased. */
  lemma FormatLocationNameWords(location: string)
    ensures Split(FormatLocationName(location), ' ') == FormatWords(Split(location, ' '))
    ensures |Split(FormatLocationName(location), ' ')| == |Split(location, ' ')|
    ensures forall w :: w in Split(FormatLocationName(location), ' ') ==> TitleCased(w)
  {
    var words := Split(location, ' ');
    SplitPiecesAvoidSeparator(location, ' ');
    forall i | 0 <= i < |words| ensures ' ' !in FormatWords(words)[i] {
      FormatWordKeepsSpaces(words[i]);
    }
    SplitJoin(FormatWords(words), ' ');
  }

  /** Title-casing a title-cased name changes nothing. */
  lemma FormatLocationNameIdempotent(location: string)
    ensures FormatLocationName(FormatLocationName(location)) == FormatLocationName(location)
  {
    var words := Split(location, ' ');
    FormatLocationNameWords(location);
    forall i | 0 <= i < |words| ensures FormatWord(FormatWord(words[i])) == FormatWord(words[i]) {
      FormatWordIdempotent(words[i]);
    }
    assert FormatWords(FormatWords(words)) == FormatWords(words);
  }

  // ---------------------------------------------------------------------------------
  // Location drop-down

  datatype SelectOption = SelectOption(value: string, caption: string)

  const AllLocations: SelectOption := SelectOption("all", "All Locations")

  /** The options offered when no locations are known. */
  const FixedLocationOptions: seq<SelectOption> := [
    SelectOption("downtown", "Downtown"),
    SelectOption("west side", "West Side"),
    SelectOption("east side", "East Side"),
    SelectOption("north side", "North Side"),
    SelectOption("suburbs", "Suburbs")
  ]

  /** The location drop-down: "all" first, then one option per known location (value
      lower-cased, label title-cased), or the five fixed options when none is known. */
  function LocationOptions(locations: seq<string>): (opts: seq<SelectOption>)
    ensures |opts| >= 1 && opts[0] == AllLocations
    ensures |locations| > 0 ==>
              |opts| == |locations| + 1
              && forall i :: 0 <= i < |locations| ==>
                   opts[i + 1] == SelectOption(ToLower(locations[i]), FormatLocationName(locations[i]))
    ensures |locations| == 0 ==> opts[1..] == FixedLocationOptions
  {
    if |locations| > 0 then
      [AllLocations]
      + seq(|locations|, i requires 0 <= i < |locations|
              => SelectOption(ToLower(locations[i]), FormatLocationName(locations[i])))
    else [AllLocations] + FixedLocationOptions
  }

  /** The value of a location's option selects that location under the page's
      comparison (lower-cased, whitespace removed). */
  lemma OptionValueMatchesLocation(f: Facility, location: string)
    requires f.location == location
    ensures MatchesLocation(f, ToLower(location))
  {
    ToLowerIdempotent(location);
  }

  /** Choosing the option of any listed location keeps every displayed facility at that
      location. */
  lemma LocationOptionSelectsItsFacilities(display: seq<Facility>, i: nat, f: Facility)
    requires i < |Locations(display)|
    requires f in display && f.location == Locations(display)[i]
    ensures LocationOptions(Locations(display))[i + 1].value == ToLower(f.location)
    ensures f in FilterFacilities(display, "", "all", LocationOptions(Locations(display))[i + 1].value)
  {
    var locs := Locations(display);
    var opts := LocationOptions(locs);
    assert opts[i + 1] == SelectOption(ToLower(locs[i]), FormatLocationName(locs[i]));
    OptionValueMatchesLocation(f, f.location);
    assert Matches(f, "", "all", ToLower(f.location));
    FilterMembership(display, "", "all", ToLower(f.location), f);
  }
}

=== FILE: text.dfy ===
/**
 * The JavaScript string operations the listing code relies on: `toLowerCase`,
 * `toUpperCase`, `includes`, `trim`, `split`, `join` and the `\s` character class.
 * Strings are sequences of characters; case mapping covers ASCII letters only.
 */
module Text {

  /** The characters JavaScript's `trim` removes and its regular-expression class `\s`
      matches: the WhiteSpace and LineTerminator code points of ECMAScript. */
  predicate IsSpace(c: char) {
    || c == ' ' || c == '\t' || c == '\n' || c == '\r' || c == '\U{000B}' || c == '\U{000C}'
    || c == '\U{00A0}' || c == '\U{1680}' || ('\U{2000}' <= c <= '\U{200A}')
    || c == '\U{2028}' || c == '\U{2029}' || c == '\U{202F}' || c == '\U{205F}'
    || c == '\U{3000}' || c == '\U{FEFF}'
  }

  function LowerChar(c: char): (r: char)
    ensures IsSpace(r) <==> IsSpace(c)
    ensures !('A' <= r <= 'Z')
  {
    if 'A' <= c <= 'Z' then (c as int + 32) as char else c
  }

  function UpperChar(c: char): (r: char)
    ensures IsSpace(r) <==> IsSpace(c)
    ensures !('a' <= r <= 'z')
  {
    if 'a' <= c <= 'z' then (c as int - 32) as char else c
  }

  /** `s.toLowerCase()`. */
  function ToLower(s: string): (r: string)
    ensures |r| == |s|
    ensures forall i :: 0 <= i < |s| ==> r[i] == LowerChar(s[i])
  {
    seq(|s|, i requires 0 <= i < |s| => LowerChar(s[i]))
  }

  lemma LowerCharIdempotent(c: char)
    ensures LowerChar(LowerChar(c)) == LowerChar(c)
    ensures LowerChar(UpperChar(c)) == LowerChar(c)
    ensures UpperChar(UpperChar(c)) == UpperChar(c)
    ensures UpperChar(LowerChar(c)) == UpperChar(c)
  {
  }

  /** Lower-casing twice is lower-casing once. */
  lemma ToLowerIdempotent(s: string)
    ensures ToLower(ToLower(s)) == ToLower(s)
  {
    forall i | 0 <= i < |s| ensures ToLower(ToLower(s))[i] == ToLower(s)[i] {
      LowerCharIdempotent(s[i]);
    }
  }

  predicate StartsWith(s: string, prefix: string) {
    |prefix| <= |s| && s[..|prefix|] == prefix
  }

  predicate EndsWith(s: string, suffix: string) {
    |suffix| <= |s| && s[|s| - |suffix|..] == suffix
  }

  /** `s.includes(t)`. */
  function Contains(s: string, t: string): bool
    decreases |s|
  {
    StartsWith(s, t) || (s != [] && Contains(s[1..], t))
  }

  /** `t` occurs in `s` starting at position `i`. */
  predicate OccursAt(s: string, t: string, i: int) {
    0 <= i <= |s| - |t| && s[i..i + |t|] == t
  }

  /** `includes` holds exactly when `t` occurs in `s` at some position. */
  lemma {:induction false} ContainsIffInfix(s: string, t: string)
    ensures Contains(s, t) <==> exists i :: OccursAt(s, t, i)
    decreases |s|
  {
    if StartsWith(s, t) {
      assert OccursAt(s, t, 0);
    } else if s == [] {
    } else {
      forall i | OccursAt(s, t, i) && i > 0 ensures OccursAt(s[1..], t, i - 1) {
        assert s[1..][i - 1..i - 1 + |t|] == s[i..i + |t|];
      }
      ContainsIffInfix(s[1..], t);
      if Contains(s[1..], t) {
        var j :| OccursAt(s[1..], t, j);
        assert s[j + 1..j + 1 + |t|] == s[1..][j..j + |t|];
        assert OccursAt(s, t, j + 1);
      }
    }
  }

  /** The empty string is included in every string. */
  lemma ContainsEmpty(s: string)
    ensures Contains(s, "")
  {
    assert StartsWith(s, "");
  }

  /** `s.replace(/\s+/g, "")`: every whitespace character removed. */
  function RemoveWhitespace(s: string): (r: string)
    ensures forall c :: c in r <==> c in s && !IsSpace(c)
  {
    if s == [] then []
    else (if IsSpace(s[0]) then [] else [s[0]]) + RemoveWhitespace(s[1..])
  }

  /** Each non-space character is kept as often as it occurs; spaces are all dropped. */
  lemma {:induction false} RemoveWhitespaceCounts(s: string, c: char)
    ensures multiset(RemoveWhitespace(s))[c] == if IsSpace(c) then 0 else multiset(s)[c]
    decreases |s|
  {
    if s != [] {
      RemoveWhitespaceCounts(s[1..], c);
      assert s == [s[0]] + s[1..];
    }
  }

  lemma AllRemoveWhitespaceCounts(s: string)
    ensures forall c :: multiset(RemoveWhitespace(s))[c] == if IsSpace(c) then 0 else multiset(s)[c]
  {
    forall c ensures multiset(RemoveWhitespace(s))[c] == if IsSpace(c) then 0 else multiset(s)[c] {
      RemoveWhitespaceCounts(s, c);
    }
  }

  /** Lower-casing works piece by piece. */
  lemma ToLowerAppend(a: string, b: string)
    ensures ToLower(a + b) == ToLower(a) + ToLower(b)
  {
    assert forall i :: 0 <= i < |a + b| ==> ToLower(a + b)[i] == (ToLower(a) + ToLower(b))[i];
  }

  /** Joining, with a separator lower-casing keeps, pieces that agree up to letter case
      gives strings that agree up to letter case. */
  lemma {:induction false} JoinToLower(us: seq<string>, ws: seq<string>, d: char)
    requires |us| == |ws| && LowerChar(d) == d
    requires forall i :: 0 <= i < |us| ==> ToLower(us[i]) == ToLower(ws[i])
    ensures ToLower(Join(us, d)) == ToLower(Join(ws, d))
    decreases |us|
  {
    if |us| > 1 {
      JoinToLower(us[1..], ws[1..], d);
      ToLowerAppend(us[0] + [d], Join(us[1..], d));
      ToLowerAppend(ws[0] + [d], Join(ws[1..], d));
      ToLowerAppend(us[0], [d]);
      ToLowerAppend(ws[0], [d]);
    }
  }

  /** Removal works piece by piece, so the characters kept stay in their order. */
  lemma {:induction false} RemoveWhitespaceAppend(a: string, b: string)
    ensures RemoveWhitespace(a + b) == RemoveWhitespace(a) + RemoveWhitespace(b)
    decreases |a|
  {
    if a == [] {
      assert a + b == b;
    } else {
      assert (a + b)[0] == a[0] && (a + b)[1..] == a[1..] + b;
      RemoveWhitespaceAppend(a[1..], b);
    }
  }

  /** Leading whitespace removed: `r` is the longest suffix of `s` that does not start with a space. */
  function TrimStart(s: string): (r: string)
    ensures |r| <= |s| && r == s[|s| - |r|..]
    ensures forall k :: 0 <= k < |s| - |r| ==> IsSpace(s[k])
    ensures r == [] || !IsSpace(r[0])
  {
    if s != [] && IsSpace(s[0]) then TrimStart(s[1..]) else s
  }

  /** Trailing whitespace removed: `r` is the longest prefix of `s` that does not end with a space. */
  function TrimEnd(s: string): (r: string)
    ensures |r| <= |s| && r == s[..|r|]
    ensures forall k :: |r| <= k < |s| ==> IsSpace(s[k])
    ensures r == [] || !IsSpace(r[|r| - 1])
  {
    if s != [] && IsSpace(s[|s| - 1]) then TrimEnd(s[..|s| - 1]) else s
  }

  /** `s.trim()`: what is left of `s` after whitespace is dropped at both ends. */
  function Trim(s: string): (r: string)
    ensures |r| <= |s|
    ensures exists i :: Trimmed(s, r, i)
    ensures r == [] || (!IsSpace(r[0]) && !IsSpace(r[|r| - 1]))
  {
    var t := TrimStart(s);
    var r := TrimEnd(t);
    TrimmedAt(s, t, r);
    r
  }

  /** `r` is the infix of `s` from `i` on, and only whitespace of `s` lies before or
      after it. */
  predicate Trimmed(s: string, r: string, i: int) {
    && 0 <= i && i + |r| <= |s| && r == s[i..i + |r|]
    && (forall k :: 0 <= k < i ==> IsSpace(s[k]))
    && (forall k :: i + |r| <= k < |s| ==> IsSpace(s[k]))
  }

  /** Dropping leading whitespace (giving `t`) and then trailing whitespace (giving `r`)
      trims `s`. */
  lemma TrimmedAt(s: string, t: string, r: string)
    requires |t| <= |s| && t == s[|s| - |t|..] && forall k :: 0 <= k < |s| - |t| ==> IsSpace(s[k])
    requires t == [] || !IsSpace(t[0])
    requires |r| <= |t| && r == t[..|r|] && forall k :: |r| <= k < |t| ==> IsSpace(t[k])
    requires r == [] || !IsSpace(r[|r| - 1])
    ensures Trimmed(s, r, |s| - |t|)
    ensures r == [] || (!IsSpace(r[0]) && !IsSpace(r[|r| - 1]))
  {
    var i := |s| - |t|;
    assert t == s[i..];
    assert r == t[..|r|];
    forall j | 0 <= j < |r| ensures r[j] == s[i + j] {
      assert r[j] == t[j];
    }
    assert r == s[i..i + |r|];
    forall k | i + |r| <= k < |s| ensures IsSpace(s[k]) {
      assert s[k] == t[k - i];
      assert |r| <= k - i < |t|;
    }
    assert r == [] || r[0] == t[0];
  }

  /** The index of the first occurrence of `c` in `s`, if any. */
  function IndexOf(s: string, c: char): (r: int)
    ensures -1 <= r < |s|
    ensures r == -1 <==> c !in s
    ensures r >= 0 ==> s[r] == c && c !in s[..r]
  {
    if s == [] then -1
    else if s[0] == c then 0
    else
      var k := IndexOf(s[1..], c);
      if k == -1 then -1
      else
        assert s[..k + 1] == [s[0]] + s[1..][..k];
        k + 1
  }

  /** The first occurrence of `c` in `a + [c] + t` is the one after `a`, when `a` has none. */
  lemma {:induction false} IndexOfAfter(a: string, c: char, t: string)
    requires c !in a
    ensures IndexOf(a + [c] + t, c) == |a|
  {
    if a != [] {
      IndexOfAfter(a[1..], c, t);
      assert (a + [c] + t)[1..] == a[1..] + [c] + t;
    }
  }

  /** `s.split(d)` for a one-character separator: the pieces between separators,
      empty pieces included; never an empty list. */
  function Split(s: string, d: char): (r: seq<string>)
    ensures |r| >= 1
  {
    if s == [] then [""]
    else if s[0] == d then [""] + Split(s[1..], d)
    else
      var rest := Split(s[1..], d);
      [[s[0]] + rest[0]] + rest[1..]
  }

  /** `ws.join(d)`. */
  function Join(ws: seq<string>, d: char): string {
    if |ws| == 0 then ""
    else if |ws| == 1 then ws[0]
    else ws[0] + [d] + Join(ws[1..], d)
  }

  /** No piece produced by `split` contains the separator. */
  lemma {:induction false} SplitPiecesAvoidSeparator(s: string, d: char)
    ensures forall i :: 0 <= i < |Split(s, d)| ==> d !in Split(s, d)[i]
  {
    if s == [] {
    } else if s[0] == d {
      SplitPiecesAvoidSeparator(s[1..], d);
      var r := Split(s, d);
      forall i | 0 <= i < |r| ensures d !in r[i] {
        if i > 0 {
          assert r[i] == Split(s[1..], d)[i - 1];
        }
      }
    } else {
      SplitPiecesAvoidSeparator(s[1..], d);
      var rest := Split(s[1..], d);
      var r := Split(s, d);
      forall i | 0 <= i < |r| ensures d !in r[i] {
        if i > 0 {
          assert r[i] == rest[i];
        } else {
          assert r[0] == [s[0]] + rest[0];
        }
      }
    }
  }

  /** Joining the pieces of a split with the same separator gives back the string. */
  lemma {:induction false} JoinSplit(s: string, d: char)
    ensures Join(Split(s, d), d) == s
  {
    if s != [] {
      JoinSplit(s[1..], d);
      if s[0] == d {
        JoinSplitAtSeparator(s, d);
      } else {
        JoinSplitInPiece(s, d);
      }
    }
  }

  lemma JoinSplitAtSeparator(s: string, d: char)
    requires s != [] && s[0] == d && Join(Split(s[1..], d), d) == s[1..]
    ensures Join(Split(s, d), d) == s
  {
    assert Split(s, d)[1..] == Split(s[1..], d);
    assert s == [d] + s[1..];
  }

  lemma JoinSplitInPiece(s: string, d: char)
    requires s != [] && s[0] != d && Join(Split(s[1..], d), d) == s[1..]
    ensures Join(Split(s, d), d) == s
  {
    var rest := Split(s[1..], d);
    assert Split(s, d) == [[s[0]] + rest[0]] + rest[1..];
    JoinExtendFirst(s[0], rest, d);
    assert s == [s[0]] + s[1..];
  }

  /** Putting a character in front of the first piece puts it in front of the join. */
  lemma JoinExtendFirst(c: char, ws: seq<string>, d: char)
    requires |ws| >= 1
    ensures Join([[c] + ws[0]] + ws[1..], d) == [c] + Join(ws, d)
  {
    var vs := [[c] + ws[0]] + ws[1..];
    assert vs[0] == [c] + ws[0] && vs[1..] == ws[1..];
    if |ws| > 1 {
      assert Join(vs, d) == ([c] + ws[0]) + [d] + Join(ws[1..], d);
    }
  }

  /** Splitting `w + [d] + t` where `w` has no separator yields `w` followed by the pieces of `t`. */
  lemma {:induction false} SplitAfterPiece(w: string, t: string, d: char)
    requires d !in w
    ensures Split(w + [d] + t, d) == [w] + Split(t, d)
    decreases |w|
  {
    if w == [] {
      assert w + [d] + t == [d] + t;
      assert ([d] + t)[1..] == t;
    } else {
      SplitAfterPiece(w[1..], t, d);
      var s := w + [d] + t;
      assert s[0] == w[0] && s[1..] == w[1..] + [d] + t;
      assert [w[0]] + w[1..] == w;
    }
  }

  /** The first piece of a split runs up to the first separator, or is the whole string. */
  lemma SplitFirstPiece(s: string, d: char)
    ensures Split(s, d)[0] == if d in s then s[..IndexOf(s, d)] else s
  {
    if d in s {
      var k := IndexOf(s, d);
      assert s == s[..k] + [d] + s[k + 1..];
      SplitAfterPiece(s[..k], s[k + 1..], d);
    } else {
      SplitWithoutSeparator(s, d);
    }
  }

  /** A string splits into more than one piece exactly when it holds the separator; the
      second piece then runs from after the first separator up to the next one, or to
      the end. */
  lemma SplitSecondPiece(s: string, d: char)
    ensures |Split(s, d)| > 1 <==> d in s
    ensures d in s ==>
              var rest := s[IndexOf(s, d) + 1..];
              Split(s, d)[1] == if d in rest then rest[..IndexOf(rest, d)] else rest
  {
    if d in s {
      var k := IndexOf(s, d);
      var rest := s[k + 1..];
      assert s == s[..k] + [d] + rest;
      SplitAfterPiece(s[..k], rest, d);
      SplitFirstPiece(rest, d);
    } else {
      SplitWithoutSeparator(s, d);
    }
  }

  /** A string with no separator splits into itself alone. */
  lemma {:induction false} SplitWithoutSeparator(w: string, d: char)
    requires d !in w
    ensures Split(w, d) == [w]
  {
    if w != [] {
      SplitWithoutSeparator(w[1..], d);
      assert [w[0]] + w[1..] == w;
    }
  }

  /** Splitting a join gives back the pieces, when no piece contains the separator. */
  lemma {:induction false} SplitJoin(ws: seq<string>, d: char)
    requires |ws| >= 1
    requires forall i :: 0 <= i < |ws| ==> d !in ws[i]
    ensures Split(Join(ws, d), d) == ws
  {
    if |ws| == 1 {
      SplitWithoutSeparator(ws[0], d);
    } else {
      SplitJoin(ws[1..], d);
      SplitAfterPiece(ws[0], Join(ws[1..], d), d);
      assert [ws[0]] + ws[1..] == ws;
    }
  }

  /** Joining lists whose pieces have pairwise equal lengths gives strings of equal length. */
  lemma {:induction false} JoinSameShape(ws: seq<string>, vs: seq<string>, d: char)
    requires |ws| == |vs|
    requires forall i :: 0 <= i < |ws| ==> |ws[i]| == |vs[i]|
    ensures |Join(ws, d)| == |Join(vs, d)|
  {
    if |ws| > 1 {
      JoinSameShape(ws[1..], vs[1..], d);
    }
  }
}

=== FILE: use_location.dfy ===
/**
 * The `useLocation` hook: four pieces of state and the copy of the location kept in
 * browser storage, changed step by step by the mount-time restore, a location request,
 * the browser's success and failure callbacks, and clear. Each callback is an event
 * delivered to a method; whether the browser offers geolocation is a parameter.
 */
module UseLocation {
  import opened Wrappers
  import opened Geo

  const UnsupportedMessage: string := "Geolocation is not supported by your browser"
  const PermissionMessage: string := "Please allow location access to find nearby clinics"
  const UnavailableMessage: string := "Location information is unavailable. Please check your device settings."
  const TimeoutMessage: string := "Location request timed out. Please try again."
  const FailureMessage: string := "Failed to get your location. Please try again."

  /** The message for a failed position request, chosen by the error code. */
  function PositionErrorMessage(code: int): (m: string)
    ensures m != ""
    ensures m == PermissionMessage <==> code == 1
    ensures m == UnavailableMessage <==> code == 2
    ensures m == TimeoutMessage <==> code == 3
    ensures code !in {1, 2, 3} <==> m == FailureMessage
  {
    if code == 1 then PermissionMessage
    else if code == 2 then UnavailableMessage
    else if code == 3 then TimeoutMessage
    else FailureMessage
  }

  /** The location the mount-time restore reads from a stored text: the stored text when
      it is non-empty and parses, nothing otherwise. */
  function RestoredLocation(stored: Option<string>): (r: Option<Coords>)
    ensures r.Some? ==> stored.Some? && stored.value != "" && Decode(stored.value) == r
    ensures stored.Some? && stored.value != "" && Decode(stored.value).Some? ==> r.Some?
  {
    if stored.Some? && stored.value != "" then Decode(stored.value) else None
  }

  /** A location stored by a successful request is restored by the next mount. */
  lemma StoredLocationRestored(c: Coords)
    ensures RestoredLocation(Some(Encode(c))) == Some(c)
  {
    DecodeEncode(c);
  }

  class LocationHook {
    var userLocation: Option<Coords>
    var locationError: Option<string>
    var isLoading: bool
    var permissionDenied: bool
    /** The `userLocation` entry of browser storage. */
    var stored: Option<string>

    /** What the hook's state keeps true between events: a shown location is the one a
        reload would restore, a denial comes with an error message, and no error is
        reported while a request is in flight. */
    predicate Valid()
      reads this
    {
      && (userLocation.Some? ==> RestoredLocation(stored) == userLocation)
      && (permissionDenied ==> locationError.Some?)
      && (isLoading ==> locationError.None?)
    }

    /** The initial state, over whatever browser storage already holds. */
    constructor (stored: Option<string>)
      ensures this.stored == stored
      ensures userLocation.None? && locationError.None? && !isLoading && !permissionDenied
      ensures Valid()
    {
      this.stored := stored;
      userLocation, locationError := None, None;
      isLoading, permissionDenied := false, false;
    }

    /** The mount effect: a stored location that is non-empty and parses becomes the
        user's location; otherwise the state is left as it was. */
    method Mount()
      requires Valid()
      modifies this
      ensures Valid()
      ensures userLocation == (if RestoredLocation(stored).Some? then RestoredLocation(stored) else old(userLocation))
      ensures stored == old(stored) && locationError == old(locationError)
      ensures isLoading == old(isLoading) && permissionDenied == old(permissionDenied)
    {
      var restored := RestoredLocation(stored);
      if restored.Some? {
        userLocation := restored;
      }
    }

    /** `requestLocation`: clears the error and the denial and starts loading; without
        geolocation it reports that at once and stops loading. The location is left as it
        was either way. */
    method RequestLocation(geolocationAvailable: bool)
      requires Valid()
      modifies this
      ensures Valid()
      ensures !permissionDenied
      ensures geolocationAvailable ==> isLoading && locationError.None?
      ensures !geolocationAvailable ==> !isLoading && locationError == Some(UnsupportedMessage)
      ensures userLocation == old(userLocation) && stored == old(stored)
    {
      isLoading := true;
      locationError := None;
      permissionDenied := false;
      if !geolocationAvailable {
        locationError := Some(UnsupportedMessage);
        isLoading := false;
      }
    }

    /** The success callback: the reported coordinates are stored and become the user's
        location, and loading stops. */
    method OnPositionSuccess(c: Coords)
      requires Valid()
      modifies this
      ensures Valid()
      ensures userLocation == Some(c) && stored == Some(Encode(c)) && !isLoading
      ensures locationError == old(locationError) && permissionDenied == old(permissionDenied)
    {
      stored := Some(Encode(c));
      StoredLocationRestored(c);
      userLocation := Some(c);
      isLoading := false;
    }

    /** The failure callback: the message for `code` is reported, a denial (code 1) is
        recorded, and loading stops. */
    method OnPositionError(code: int)
      requires Valid()
      modifies this
      ensures Valid()
      ensures locationError == Some(PositionErrorMessage(code)) && !isLoading
      ensures permissionDenied == (code == 1 || old(permissionDenied))
      ensures userLocation == old(userLocation) && stored == old(stored)
    {
      var errorMessage := "";
      if code == 1 {
        errorMessage := PermissionMessage;
        permissionDenied := true;
      } else if code == 2 {
        errorMessage := UnavailableMessage;
      } else if code == 3 {
        errorMessage := TimeoutMessage;
      } else {
        errorMessage := FailureMessage;
      }
      locationError := Some(errorMessage);
      isLoading := false;
    }

    /** `clearLocation`: the stored copy is removed and the location, the denial and the
        error are cleared; loading is left as it was. */
    method ClearLocation()
      requires Valid()
      modifies this
      ensures Valid()
      ensures stored.None? && userLocation.None? && !permissionDenied && locationError.None?
      ensures isLoading == old(isLoading)
    {
      stored := None;
      userLocation := None;
      permissionDenied := false;
      locationError := None;
    }
  }

  /** A request that succeeds survives a reload: a fresh hook over the stored text restores
      the same coordinates once mounted. */
  method RequestThenReload(stored: Option<string>, c: Coords) returns (restored: Option<Coords>)
    ensures restored == Some(c)
  {
    var hook := new LocationHook(stored);
    hook.Mount();
    hook.RequestLocation(true);
    hook.OnPositionSuccess(c);
    var reloaded := new LocationHook(hook.stored);
    reloaded.Mount();
    restored := reloaded.userLocation;
  }
}

=== FILE: wrappers.dfy ===
/** Optional values: a field that the loosely-typed API record may leave undefined. */
module Wrappers {

  datatype Option<+T> = None | Some(value: T) {

    /** The wrapped value, or `default` when absent. */
    function GetOr(default: T): T {
      match this
      case Some(v) => v
      case None => default
    }
  }
}
